=== FILE: README.md ===
# mod_cookietrack, modelled in Dafny

mod_cookietrack is an Apache httpd module that gives every visitor a
tracking cookie. Its fixups hook (`spot_cookie`) runs for each main request:

- it reads the tracking value from the request's Cookie header;
- it leaves DNT-exempt values alone;
- it honours the Do Not Track header, unless the browser's User-Agent is exempt;
- it picks the client address, from a forwarded-address header or from the peer;
- it settles on the value to set: the DNT value, the value the request brought (cut to 40 characters), or a fresh `address.microseconds` identifier;
- it hands that value to `make_cookie`.

`make_cookie` renders the `Set-Cookie` or `Set-Cookie2` text in one of three
expiry dialects and records the header and note changes. The configuration
handlers check and store the directives:

- `set_cookie_exp` parses the lifetime;
- `set_config_value` handles the string directives;
- `set_config_enable` handles the on/off directives;
- `set_and_comp_regexp` escapes the cookie name into the lookup pattern.

The model is pure functions over explicit inputs. A request is its header
list, the peer's name, a subrequest flag and the clock readings. The
configuration is an immutable record. The hook's result is `Declined` or
`Handled(effects)`, where `effects` lists, in source order, the notes set and
the headers added to the request and the response.

| file | module | models |
|---|---|---|
| wrappers.dfy | Wrappers | `Option`, `Result` |
| text.dfy | Text | C-locale character classes, `strcasecmp`/`strncasecmp`, `strchr`/`strrchr`, `apr_pstrndup`, split/join |
| decimal.dfy | Decimal | `%d`, `%u`, `%.2d` rendering; `atoi`/`atol` reading |
| pattern.dfy | CookiePattern | the name escaping and pattern text of `set_and_comp_regexp` |
| settings.dfy | Settings | the configuration record and `make_cookietrack_settings` |
| headers.dfy | Headers | header tables (`apr_table_get`, `addn`, `setn`) and effect lists |
| scanner.dfy | CookieScanner | what the compiled cookie pattern finds in a Cookie header |
| render.dfy | Render | `make_cookie`: the cookie text and its effects |
| tracker.dfy | Tracker | `spot_cookie` |
| tracker_facts.dfy | TrackerFacts | properties of the whole hook |
| expires.dfy | Expires | `set_cookie_exp` |
| directives.dfy | Directives | `set_config_value`, `set_config_enable`, reading a sequence of directives |

How the cookie pattern is matched. The pattern
`^NAME=([^;,]+)|[;,][ \t]*NAME=([^;,]+)` runs in the server's backtracking
(PCRE-style) engine. It takes the leftmost start position. At that position
the anchored alternative is tried first, and the greedy blank run gives up
blanks one at a time. The scanner follows this order. Its contract states
the result against a declarative description of every possible match
(`OccursAt`, `IsFirst`).

Where the code and its documentation disagree, the model follows the code:

- A lifetime is written whenever `expires` is non-zero, not only when it is positive (line 160).
- Any first word that starts with `p` counts as "plus" (line 546).
- An argument that starts and ends with a digit is read by `atol` alone, so `1 hours 30` means one second (lines 534-536).
- The pattern's delimiters are `;` and `,`, and blanks after them are optional (line 634).

## Model

| member | source | states |
|---|---|---|
| CookieScanner.RunEnd | mod_cookietrack.c:634-636 | the greedy value class `[^;,]+` stops exactly at the next `;` or `,` or at the end |
| CookieScanner.BlankEnd | mod_cookietrack.c:634 | `[ \t]*` runs exactly over the blanks that follow a delimiter |
| CookieScanner.TryBlanks | mod_cookietrack.c:632-636 | after a delimiter, the name is found after the longest blank run that works, and no longer run works |
| CookieScanner.LocateFrom | mod_cookietrack.c:289 | the reported match starts at the leftmost position where the pattern matches, and wins over every other match at that position in the engine's order; no match means no position matches |
| CookieScanner.Locate | mod_cookietrack.c:289 | the match found is the one the backtracking engine reports; none is found iff the pattern cannot match |
| CookieScanner.Scan | mod_cookietrack.c:285-304 | a value is found iff some `NAME=value` starts the header or follows `;`/`,` and blanks; the value is that of the reported match, non-empty and free of `;` and `,` |
| CookieScanner.FirstIsUnique | mod_cookietrack.c:289-303 | the reported match is unique, so exactly one of `$1`/`$2` is used |
| CookieScanner.LeadingCookieWins | mod_cookietrack.c:632-636 | a header that starts with `NAME=v` yields v, whatever follows its delimiter |
| CookieScanner.EmptyValueSkipped | mod_cookietrack.c:632-636 | `Apache=; Apache=42` yields `42`: an occurrence with an empty value does not match |
| CookieScanner.LocateSkipsEmptyValue | mod_cookietrack.c:632-636 | in `Apache=; Apache=42` the match starts at the `;` and the name after its blank |
| CookiePattern.Escape | mod_cookietrack.c:611-630 | every non-alphanumeric character gains one backslash: the length grows by the `danger_chars` count |
| CookiePattern.EscapeIsLiteral | mod_cookietrack.c:608-636 | an escaped name is a pure literal of the pattern dialect that matches exactly the name |
| CookiePattern.EscapeAlnumUnchanged | mod_cookietrack.c:618-630 | a name of letters and digits is pasted unchanged |
| Settings.Default | mod_cookietrack.c:643-671 | the default record's pattern is the one built for the default cookie name |
| Text.Lower | mod_cookietrack.c:322 | case folding in the C locale maps each ASCII capital to its small letter (code + 32) and leaves every other character unchanged |
| Text.Truncate | mod_cookietrack.c:475-476 | `apr_pstrndup` keeps a prefix of the value: all of it, or exactly n characters |
| Text.IndexOf | mod_cookietrack.c:785 | `strchr`: the first occurrence, or the end when there is none |
| Text.LastIndexOf | mod_cookietrack.c:403 | `strrchr`: the last occurrence, and none iff the character is absent |
| Decimal.LeadingValueRoundTrip | mod_cookietrack.c:554 | `atoi` reads back the number `%d` wrote, whatever non-digit follows it |
| Decimal.Pad2RoundTrip | mod_cookietrack.c:179-185 | a `%.2d` field in 0..99 is two digits that read back as the field |
| Headers.Lookup | mod_cookietrack.c:285 | `apr_table_get` finds a value iff some entry's name equals the key ignoring case, and then it is the first such entry's value |
| Headers.LookupAppend | mod_cookietrack.c:237 | `addn` appends: a name already present reads as before |
| Headers.NoteValue | mod_cookietrack.c:247 | `setn` replaces: a note reads as the last value set under its name ignoring case, and is absent iff none was set |
| Render.CRem | mod_cookietrack.c:183 | C's `%` truncates toward zero: the remainder has the dividend's sign, is smaller than the divisor in magnitude, and equals the dividend minus divisor times the truncated quotient; for a non-negative year it is the mathematical remainder |
| Render.DateLayout | mod_cookietrack.c:179-185 | the Netscape date has 27 characters, with every field and separator at a fixed position |
| Render.FormatDateRoundTrip | mod_cookietrack.c:179-185 | the date text reads back as the weekday, day, month, two-digit year and time it was written from |
| Render.DefaultDntExpiresIsNetscapeDate | mod_cookietrack.c:53 | the fixed DNT expiry text is Friday 2038-01-01 00:00:00 GMT in the same format as the rolling expiry |
| Render.RenderCookie | mod_cookietrack.c:160-221 | the cookie always begins `NAME=VALUE; path=/` |
| Render.RenderedSegments | mod_cookietrack.c:160-221 | split at `;`, the cookie's first segment is the name=value pair, and there are two segments plus one for a non-zero lifetime, one for a domain and one more for version in the RFC 2965 style |
| Render.RenderedAttribute | mod_cookietrack.c:160-221 | each attribute read back by name: path is `/`; expires (Netscape or Unset) or max-age (RFC 2109 or 2965), never both, iff the lifetime is non-zero, carrying the DNT text or DNT seconds under DNT; domain iff configured; version=1 iff domain and Cookie2; nothing else |
| Render.MakeCookie | mod_cookietrack.c:146-267 | the first effect adds the cookie, rendered from the value cut to the 1023 characters the buffer holds, under Set-Cookie2 in the RFC 2965 style and Set-Cookie otherwise; the log note ends up holding the whole value |
| Render.CookieEffects | mod_cookietrack.c:226-265 | the log note ends up holding the value |
| Render.CookieEffectsResponse | mod_cookietrack.c:226-259 | the response gains the cookie, then the identifier header iff send_header is on |
| Render.CookieEffectsRequest | mod_cookietrack.c:234-254 | the request gains the cookie iff it brought no value, then the identifier header iff send_header is on |
| Render.CookieEffectsGeneratedNote | mod_cookietrack.c:243-265 | the generated note is `1` iff no value came in, unless the log note has the same name and overwrites it |
| Tracker.CurrentValue | mod_cookietrack.c:284-305 | no Cookie header means no current value; with one, the first Cookie header is read: a value is found iff the pattern matches it somewhere, and it is the value of the reported match, non-empty |
| Tracker.AnyEqualIgnoreCase | mod_cookietrack.c:320-327 | the exemption loop succeeds iff some entry equals the value ignoring case |
| Tracker.FirstMatch | mod_cookietrack.c:362-380 | the first pattern that matches the User-Agent in list order, and none iff no pattern matches |
| Tracker.SkipSpaces | mod_cookietrack.c:412-415 | drops exactly the leading spaces, not tabs |
| Tracker.LastEntry | mod_cookietrack.c:403-416 | a suffix with no comma; the whole header when it has no comma, else starting after the last comma with no leading space |
| Tracker.NewValue | mod_cookietrack.c:430-496 | the DNT value under DNT; otherwise the current value cut to its first 40 characters, unless it is absent or equals the DNT value ignoring case, and then a fresh identifier |
| Tracker.SpotCookie | mod_cookietrack.c:270-515 | a handled request is an enabled main request, and its first effect sets the log note |
| TrackerFacts.DeclineConditions | mod_cookietrack.c:279-436 | declines iff tracking is off, it is a subrequest, the value is DNT-exempt ignoring case, or DNT applies and no DNT cookie is wanted |
| TrackerFacts.HandledNote | mod_cookietrack.c:500-507 | the note set before make_cookie leaves the log note, headers and generated note as make_cookie makes them |
| TrackerFacts.DntCookieSet | mod_cookietrack.c:431-507 | under DNT (and DNT cookies wanted) the request is handled, the DNT value is logged, and the response gains exactly the cookie rendered with it in DNT mode, then the identifier header with the DNT value when enabled |
| TrackerFacts.ExistingValueKept | mod_cookietrack.c:446-507 | outside DNT an ordinary value is kept, cut to 40 characters: it is logged, the response gains exactly the cookie rendered with that cut value (then the identifier header with it when enabled), the request gains only that identifier header, and the generated note is `0` |
| TrackerFacts.FreshValueGenerated | mod_cookietrack.c:446-507 | outside DNT a missing value or a stale DNT value gets a fresh identifier from the client address and timestamp; the generated note is `1` for a missing value and `0` for a stale one; the request gains exactly the Cookie header holding the cookie rendered with the identifier when no value came in, then the identifier header when enabled; the response gains that same rendered cookie as Set-Cookie(2), then the identifier header |
| TrackerFacts.DntSignalIgnored | mod_cookietrack.c:333-382 | when the configured address header is not itself named DNT, a DNT header of `0`, or a DNT header from an exempt browser, gives the same outcome as no DNT header |
| TrackerFacts.LastEntryOfList | mod_cookietrack.c:397-416 | the address taken from `front, <spaces>addr` is addr |
| TrackerFacts.LastCommaAt | mod_cookietrack.c:403 | `strrchr` finds the comma that precedes a comma-free rest |
| TrackerFacts.BuiltinUidParts | mod_cookietrack.c:463-464 | a built-in identifier splits at its last dot into the client address and the timestamp |
| TrackerFacts.ValueIsStable | mod_cookietrack.c:446-507 | a value of at most 40 characters that comes back in the Cookie header is logged again unchanged, not re-injected, and sent back in a cookie rendered with that same value, which the scanner reads back as it |
| TrackerFacts.RenderedCookieScans | mod_cookietrack.c:163-164 | scanning a rendered cookie with its own name gives back the value it was rendered with |
| TrackerFacts.InjectedCookieReadable | mod_cookietrack.c:234-237 | after injection into a request without a Cookie header, the application reads the value back |
| Expires.Words | mod_cookietrack.c:545 | the argument's words are non-empty |
| Expires.ScaledIsProduct | mod_cookietrack.c:582 | the repeated sum is factor times num |
| Expires.ParseExpires | mod_cookietrack.c:523-591 | an accepted lifetime is never negative |
| Expires.SumTermsNonNegative | mod_cookietrack.c:582-588 | the running total only grows |
| Expires.SetCookieExpires | mod_cookietrack.c:523-591 | accepts iff the argument parses, stores its seconds, and otherwise returns the source's error text |
| Expires.UnitNameRecognised | mod_cookietrack.c:563-580 | every unit spelled in full is recognised with its length in seconds |
| Expires.FastPathRoundTrip | mod_cookietrack.c:534-536 | a plain number is its own lifetime |
| Expires.EmptyArgumentIsSession | mod_cookietrack.c:534-588 | an empty argument fails the fast-path test on its first character, holds no words, and gives lifetime 0 |
| Expires.FastPathReadsLeadingNumber | mod_cookietrack.c:534-536 | `1 hours 30` takes the fast path and means 1 second |
| Expires.SumTermsStep | mod_cookietrack.c:551-586 | one number/unit pair adds factor times num, and the loop goes on |
| Expires.ReadNumberWord | mod_cookietrack.c:553-554 | a count in decimal is a number word with that value |
| Expires.ReadUnitWord | mod_cookietrack.c:563-580 | a unit's name is a word with that unit's factor |
| Expires.SumTermReadings | mod_cookietrack.c:551-588 | the loop adds up the terms exactly |
| Expires.ParseFormattedTerms | mod_cookietrack.c:545-590 | a duration written as `<num> <unit> ...` parses to the seconds it denotes |
| Expires.ParsePlusFormattedTerms | mod_cookietrack.c:545-548 | the same with a leading `plus` |
| Expires.MissingTypeError | mod_cookietrack.c:560-561 | `plus 3` is rejected for the missing type |
| Expires.NumberExpectedError | mod_cookietrack.c:553-557 | `plus x days` is rejected for the missing number |
| Expires.UnknownUnit | mod_cookietrack.c:563-580 | a word whose first letter starts no unit names none |
| Expires.UnitLetters | mod_cookietrack.c:563-580 | a word's unit is decided by its first letter in any case (y, w, d, h, s), and for m by its second (mo months, mi minutes, any other m word no unit) |
| Expires.SumTermReadingsThen | mod_cookietrack.c:551-586 | after the readings of a written duration the loop carries on with the duration's seconds added to the total |
| Expires.TermWordsThen | mod_cookietrack.c:545-590 | an argument whose words begin with a written duration parses as the remaining words would, starting from that duration's seconds |
| Expires.MissingTypeAfterTerms | mod_cookietrack.c:559-561 | after any number of pairs, a final number without its unit is rejected as missing its type |
| Expires.NumberExpectedAfterTerms | mod_cookietrack.c:552-557 | after any number of pairs, a word that does not start with a digit where a number belongs is rejected as not numeric |
| Expires.UnknownTypeAfterTerms | mod_cookietrack.c:563-580 | after any number of pairs, a number followed by a word that names no unit is rejected as an unrecognized type |
| Expires.UnknownTypeError | mod_cookietrack.c:578-580 | `3 fortnights` is rejected for the unknown type |
| Directives.StyleFromKeyword | mod_cookietrack.c:757-772 | Netscape gives the Netscape style, Cookie or RFC2109 the Cookie style, Cookie2 or RFC2965 the Cookie2 style, all ignoring case; no style is given iff the word is none of the five keywords, and the unset style is never given |
| Directives.CheckDomain | mod_cookietrack.c:779-789 | a domain passes iff it begins with a dot and holds another dot after the first character |
| Directives.FieldNamed | mod_cookietrack.c:740-833 | a name selects a field only if it equals that field's directive name ignoring case |
| Directives.SetConfigValue | mod_cookietrack.c:735-836 | an empty value and an unknown name are refused with the source's texts; success changes no lifetime, flag or DNT expiry, and keeps the pattern current |
| Directives.SetConfigFlag | mod_cookietrack.c:693-709 | a name is refused iff it is none of the four flag directives ignoring case, with the text `No such variable <name>`; success changes only the four on/off flags |
| Directives.ApplyAllKeepsPattern | mod_cookietrack.c:792-796 | whatever directives are read, the pattern matches the cookie name in force |
| Directives.ConfiguredPatternCurrent | mod_cookietrack.c:666-668 | every configuration built from the defaults has a current pattern |
| Directives.FieldNamedComplete | mod_cookietrack.c:740-818 | every spelling of a directive name in any case selects its field |
| Directives.FieldNamedIgnoreCase | mod_cookietrack.c:740-818 | two spellings of a name select the same field |
| Directives.SameFieldSameConfig | mod_cookietrack.c:740-833 | apart from error wording, the result depends on the name only through its field |
| Directives.DirectiveNamesIgnoreCase | mod_cookietrack.c:740-833 | two spellings of one name configure identically |
| Directives.ValueDirectiveStores | mod_cookietrack.c:739-829 | a non-empty value given to a directive named in any case changes only that directive's field: the names and address header are replaced; CookieStyle stores the keyword's style or gives the `Invalid` error; CookieDomain stores the value or gives the domain rule's error; CookieName also rebuilds the pattern; the exemption lists grow by the value at their end |
| Directives.FlagDirectiveSets | mod_cookietrack.c:693-703 | each on/off directive, in any case, sets its own flag |
| Directives.DomainRule | mod_cookietrack.c:779-789 | CookieDomain is accepted iff the value starts with a dot and holds another, is stored as given, and a missing leading dot gives the first error text |
| Directives.StyleKeywordRoundTrip | mod_cookietrack.c:757-772 | every configurable style is reached by its keyword in any case |
| Directives.RfcStyleSynonyms | mod_cookietrack.c:762-768 | RFC2109 means the Cookie style and RFC2965 means the Cookie2 style |

## Left out

- Apache plumbing: `request_rec`, pools, hook and command registration, the module record, and `ap_get_module_config`. The hook's inputs and outputs are explicit values. Header tables are lists of name/value pairs, with the read and append rules stated in Headers.
- Command routing: Apache sends each directive to its handler by name. A `Directive` arrives already routed. `ITERATE` directives arrive one value at a time.
- Clocks and the calendar: `apr_time_now`, `time()`, `r->request_time` and `apr_time_exp_gmt` are inputs (`Clock`). Only the field formatting is modelled.
- `ap_get_remote_host`: the peer's name is an input.
- External identifiers: the `gen_uid` library hook is an opaque function of the timestamp text and the address. The empty `__builtin_gen_uid` stub is never called.
- User-Agent patterns: `ap_pregcomp`/`ap_regexec` on them are an abstract `matches(pattern, ua)` parameter. The `ap_assert` on a pattern that does not compile is left out.
- Pattern compilation: the CookieName failures are left out, namely a pattern that does not compile and the `re_nsub` check. An escaped name always compiles to the three-group pattern.
- Integer widths: `int`, `time_t`, and `atoi`/`atol` overflow are modelled with mathematical integers.
- Bytes: a Dafny string stands for a C byte string, one character per byte. Multibyte text is not modelled. For ASCII input the model and the source agree.
- Text.Truncate: counts characters, where `apr_pstrndup` counts bytes, so a multibyte value is cut at 40 characters rather than 40 bytes.
- CookiePattern.Escape: puts one backslash before a non-ASCII character, where the source puts one before each of its bytes.
- Expires.ParseExpires: its own contract states only that an accepted lifetime is non-negative. The values it computes and the three rejections are stated for all inputs by the lemmas ParseTermWords, TermWordsThen, MissingTypeAfterTerms, NumberExpectedAfterTerms and UnknownTypeAfterTerms, and by SetCookieExpires for the stored value and error text.
- Expires.Words: `ap_getword_conf`'s quoting rules are not modelled. Words are split at C-locale white space, and the contract only states that words are non-empty.
- Fixed-buffer hazards are not modelled:
  - the 40-character value plus its NUL in the 40-byte buffer;
  - the unbounded `sprintf` of a generated identifier, which is not length-bounded;
  - the 50-byte copy of the directive name.
- Buffer truncation that is modelled: `snprintf` into the 1024-byte render buffer truncates safely, so the rendered cookie uses the first 1023 characters of the value.
- Tracker.SpotCookie: its contract alone states only the shape of a handled result. The decisions, and on each path the exact request and response headers added, are stated in TrackerFacts.
- `_DEBUG` output and the commented-out environment-variable exemption.

=== FILE: decimal.dfy ===
/** Decimal rendering and reading of integers, as printf's %d / %.2d and
    C's atoi / atol use them. */
module Decimal {

  import opened Text

  function DigitChar(d: nat): (c: char)
    requires d < 10
    ensures IsDigit(c)
  {
    ('0' as int + d) as char
  }

  function DigitValue(c: char): (d: nat)
    requires IsDigit(c)
    ensures d < 10 && DigitChar(d) == c
  {
    c as int - '0' as int
  }

  predicate AllDigits(s: string) {
    forall i :: 0 <= i < |s| ==> IsDigit(s[i])
  }

  /** The value of a string of decimal digits, most significant first. */
  function DigitsValue(s: string): nat
    requires AllDigits(s)
  {
    if |s| == 0 then 0 else DigitsValue(s[..|s| - 1]) * 10 + DigitValue(s[|s| - 1])
  }

  /** printf("%u", n): the shortest decimal rendering, without leading zeros. */
  function NatToString(n: nat): (s: string)
    ensures |s| > 0 && AllDigits(s)
    ensures |s| > 1 ==> s[0] != '0'
    ensures n < 10 <==> |s| == 1
    ensures n < 100 ==> |s| <= 2
  {
    if n < 10 then [DigitChar(n)] else NatToString(n / 10) + [DigitChar(n % 10)]
  }

  /** printf("%d", n). */
  function IntToString(n: int): (s: string)
    ensures |s| > 0
  {
    if n < 0 then "-" + NatToString(-n) else NatToString(n)
  }

  /** printf("%.2d", n): at least two digits, zero-padded, sign in front. */
  function Pad2(n: int): (s: string)
    ensures 0 <= n < 100 ==> |s| == 2 && AllDigits(s)
  {
    var digits := NatToString(if n < 0 then -n else n);
    var padded := if |digits| < 2 then "0" + digits else digits;
    if n < 0 then "-" + padded else padded
  }

  /** The longest run of digits at the front of s. */
  function LeadingDigits(s: string): (d: string)
    ensures d <= s && AllDigits(d)
    ensures |d| < |s| ==> !IsDigit(s[|d|])
  {
    if |s| == 0 || !IsDigit(s[0]) then "" else [s[0]] + LeadingDigits(s[1..])
  }

  /** atoi / atol on a string whose first character is a digit: the value of
      the leading digit run, the rest ignored (overflow is not modelled). */
  function LeadingValue(s: string): nat {
    DigitsValue(LeadingDigits(s))
  }

  /** Reads back a rendering of IntToString: an optional minus sign, then digits. */
  function SignedValue(s: string): int
    requires AllDigits(s) || (|s| > 0 && s[0] == '-' && AllDigits(s[1..]))
  {
    if |s| > 0 && s[0] == '-' then 0 - DigitsValue(s[1..]) as int else DigitsValue(s)
  }

  lemma {:induction false} NatToStringRoundTrip(n: nat)
    ensures DigitsValue(NatToString(n)) == n
    decreases n
  {
    if n >= 10 {
      var s := NatToString(n);
      assert s[..|s| - 1] == NatToString(n / 10);
      NatToStringRoundTrip(n / 10);
    }
  }

  lemma IntToStringRoundTrip(n: int)
    ensures var s := IntToString(n);
      (AllDigits(s) || (s[0] == '-' && AllDigits(s[1..]))) && SignedValue(s) == n
  {
    var s := IntToString(n);
    if n < 0 {
      assert s[1..] == NatToString(-n);
      NatToStringRoundTrip(-n);
    } else {
      NatToStringRoundTrip(n);
    }
  }

  lemma {:induction false} LeadingDigitsOfDigits(d: string, rest: string)
    requires AllDigits(d)
    requires |rest| == 0 || !IsDigit(rest[0])
    ensures LeadingDigits(d + rest) == d
    decreases |d|
  {
    if |d| > 0 {
      assert (d + rest)[1..] == d[1..] + rest;
      LeadingDigitsOfDigits(d[1..], rest);
    } else {
      assert d + rest == rest;
    }
  }

  /** atoi reads back exactly the number that %d wrote, whatever follows it
      as long as that does not start with a digit. */
  lemma LeadingValueRoundTrip(n: nat, rest: string)
    requires |rest| == 0 || !IsDigit(rest[0])
    ensures LeadingValue(NatToString(n) + rest) == n
  {
    LeadingDigitsOfDigits(NatToString(n), rest);
    NatToStringRoundTrip(n);
  }

  /** %.2d of a two-digit field reads back as the field. */
  lemma Pad2RoundTrip(n: int)
    requires 0 <= n < 100
    ensures DigitsValue(Pad2(n)) == n
  {
    var digits := NatToString(n);
    NatToStringRoundTrip(n);
    if |digits| < 2 {
      var p := "0" + digits;
      assert p[..1] == "0";
      assert DigitsValue(p[..1]) == 0 by {
        assert p[..1][..0] == "";
      }
      assert DigitsValue(digits) == DigitValue(digits[0]) by {
        assert digits[..0] == "";
      }
    }
  }
}

=== FILE: directives.dfy ===
/** The string and flag directives (set_config_value, set_config_enable):
    empty values are refused, the directive name selects the field
    ignoring case, CookieStyle and CookieDomain values are validated, and
    CookieName rebuilds the cookie pattern. */
module Directives {

  import opened Wrappers
  import opened Text
  import opened Settings
  import opened CookiePattern
  import Expires

  /** The CookieStyle keywords, ignoring case. */
  function StyleFromKeyword(v: string): (s: Option<Style>)
    ensures s != Some(Unset)
    ensures EqualsIgnoreCase(v, "Netscape") ==> s == Some(Netscape)
    ensures EqualsIgnoreCase(v, "Cookie") || EqualsIgnoreCase(v, "RFC2109") ==> s == Some(Cookie)
    ensures EqualsIgnoreCase(v, "Cookie2") || EqualsIgnoreCase(v, "RFC2965") ==> s == Some(Cookie2)
    ensures s.None? <==> !(|| EqualsIgnoreCase(v, "Netscape") || EqualsIgnoreCase(v, "Cookie")
                           || EqualsIgnoreCase(v, "RFC2109") || EqualsIgnoreCase(v, "Cookie2")
                           || EqualsIgnoreCase(v, "RFC2965"))
  {
    if EqualsIgnoreCase(v, "Netscape") then Some(Netscape)
    else if EqualsIgnoreCase(v, "Cookie") || EqualsIgnoreCase(v, "RFC2109") then
      RfcNamesApart(v);
      Some(Cookie)
    else if EqualsIgnoreCase(v, "Cookie2") || EqualsIgnoreCase(v, "RFC2965") then Some(Cookie2)
    else None
  }

  /** RFC2109 is spelt neither Cookie2 nor RFC2965, ignoring case. */
  lemma RfcNamesApart(v: string)
    ensures EqualsIgnoreCase(v, "RFC2109") ==> !EqualsIgnoreCase(v, "Cookie2") && !EqualsIgnoreCase(v, "RFC2965")
  {
    if EqualsIgnoreCase(v, "RFC2109") {
      assert Lower(v[0]) == Lower('R') != Lower('C');
      assert Lower(v[4]) == Lower('1') != Lower('9');
    }
  }

  const DomainNeedsDot := "CookieDomain values must begin with a dot"
  const DomainNeedsEmbeddedDot := "CookieDomain values must contain at least one embedded dot"

  /** The CookieDomain rule for a non-empty value: it must begin with a dot
      and hold another dot after the first character. */
  function CheckDomain(v: string): (err: Option<string>)
    requires |v| > 0
    ensures err.None? <==> v[0] == '.' && exists i :: 1 <= i < |v| && v[i] == '.'
  {
    if v[0] != '.' then Some(DomainNeedsDot)
    else if IndexOf(v[1..], '.') == |v[1..]| then
      assert forall i :: 1 <= i < |v| ==> v[i] == v[1..][i - 1];
      Some(DomainNeedsEmbeddedDot)
    else
      assert v[1 + IndexOf(v[1..], '.')] == '.';
      None
  }

  /** The string-valued configuration fields, in the order the handler
      tests their directive names. */
  datatype Field =
    | HeaderName | NoteName | GeneratedNoteName | DntValue | StyleField
    | IpHeader | Domain | Name | DntExempt | DntExemptBrowsers

  /** The directive that sets each field. */
  function DirectiveName(f: Field): string {
    match f
    case HeaderName => "CookieHeaderName"
    case NoteName => "CookieNoteName"
    case GeneratedNoteName => "CookieGeneratedNoteName"
    case DntValue => "CookieDNTValue"
    case StyleField => "CookieStyle"
    case IpHeader => "CookieIPHeader"
    case Domain => "CookieDomain"
    case Name => "CookieName"
    case DntExempt => "CookieDNTExempt"
    case DntExemptBrowsers => "CookieDNTExemptBrowsers"
  }

  /** The field a directive name selects, comparing names ignoring case. */
  function FieldNamed(name: string): (f: Option<Field>)
    ensures f.Some? ==> EqualsIgnoreCase(name, DirectiveName(f.value))
  {
    if EqualsIgnoreCase(name, "CookieHeaderName") then Some(HeaderName)
    else if EqualsIgnoreCase(name, "CookieNoteName") then Some(NoteName)
    else if EqualsIgnoreCase(name, "CookieGeneratedNoteName") then Some(GeneratedNoteName)
    else if EqualsIgnoreCase(name, "CookieDNTValue") then Some(DntValue)
    else if EqualsIgnoreCase(name, "CookieStyle") then Some(StyleField)
    else if EqualsIgnoreCase(name, "CookieIPHeader") then Some(IpHeader)
    else if EqualsIgnoreCase(name, "CookieDomain") then Some(Domain)
    else if EqualsIgnoreCase(name, "CookieName") then Some(Name)
    else if EqualsIgnoreCase(name, "CookieDNTExempt") then Some(DntExempt)
    else if EqualsIgnoreCase(name, "CookieDNTExemptBrowsers") then Some(DntExemptBrowsers)
    else None
  }

  /** set_config_value: the value of the string directive name. */
  function SetConfigValue(cfg: Config, name: string, value: string): (r: Result<Config, string>)
    ensures |value| == 0 ==> r == Err(name + " not allowed to be NULL")
    ensures |value| > 0 && FieldNamed(name).None? ==> r == Err("No such variable " + name)
    ensures r.Ok? ==> && r.value.enabled == cfg.enabled && r.value.expires == cfg.expires
                      && r.value.sendHeader == cfg.sendHeader && r.value.setDntCookie == cfg.setDntCookie
                      && r.value.complyWithDnt == cfg.complyWithDnt
                      && r.value.dntMaxAge == cfg.dntMaxAge && r.value.dntExpires == cfg.dntExpires
    ensures r.Ok? && PatternCurrent(cfg) ==> PatternCurrent(r.value)
  {
    if |value| == 0 then Err(name + " not allowed to be NULL")
    else
      match FieldNamed(name)
      case None => Err("No such variable " + name)
      case Some(HeaderName) => Ok(cfg.(headerName := value))
      case Some(NoteName) => Ok(cfg.(noteName := value))
      case Some(GeneratedNoteName) => Ok(cfg.(generatedNoteName := value))
      case Some(DntValue) => Ok(cfg.(dntValue := value))
      case Some(StyleField) =>
        (match StyleFromKeyword(value)
         case None => Err("Invalid " + name + ": " + value)
         case Some(s) => Ok(cfg.(style := s)))
      case Some(IpHeader) => Ok(cfg.(ipHeader := Some(value)))
      case Some(Domain) =>
        (match CheckDomain(value)
         case Some(e) => Err(e)
         case None => Ok(cfg.(cookieDomain := Some(value))))
      case Some(Name) => Ok(cfg.(cookieName := value, regexp := RegexpText(value)))
      case Some(DntExempt) => Ok(cfg.(dntExempt := cfg.dntExempt + [value]))
      case Some(DntExemptBrowsers) => Ok(cfg.(dntExemptBrowsers := cfg.dntExemptBrowsers + [value]))
  }

  /** set_config_enable: the value of the on/off directive name. */
  function SetConfigFlag(cfg: Config, name: string, on: bool): (r: Result<Config, string>)
    ensures r.Ok? ==> r.value.(enabled := cfg.enabled, sendHeader := cfg.sendHeader,
                               setDntCookie := cfg.setDntCookie, complyWithDnt := cfg.complyWithDnt) == cfg
    ensures r.Err? <==> !(|| EqualsIgnoreCase(name, "CookieTracking") || EqualsIgnoreCase(name, "CookieSendHeader")
                          || EqualsIgnoreCase(name, "CookieSetDNTCookie") || EqualsIgnoreCase(name, "CookieDNTComply"))
    ensures r.Err? ==> r.error == "No such variable " + name
  {
    if EqualsIgnoreCase(name, "CookieTracking") then Ok(cfg.(enabled := on))
    else if EqualsIgnoreCase(name, "CookieSendHeader") then Ok(cfg.(sendHeader := on))
    else if EqualsIgnoreCase(name, "CookieSetDNTCookie") then Ok(cfg.(setDntCookie := on))
    else if EqualsIgnoreCase(name, "CookieDNTComply") then Ok(cfg.(complyWithDnt := on))
    else Err("No such variable " + name)
  }

  /** One configuration line, already routed to its handler. */
  datatype Directive =
    | ExpiresLine(arg: string)
    | ValueLine(name: string, value: string)
    | FlagLine(name: string, on: bool)

  function ApplyDirective(cfg: Config, d: Directive): Result<Config, string> {
    match d
    case ExpiresLine(arg) => Expires.SetCookieExpires(cfg, arg)
    case ValueLine(name, value) => SetConfigValue(cfg, name, value)
    case FlagLine(name, on) => SetConfigFlag(cfg, name, on)
  }

  /** A scope's configuration: the defaults, then each line in order; the
      first error stops the reading. */
  function ApplyAll(cfg: Config, ds: seq<Directive>): Result<Config, string>
    decreases |ds|
  {
    if |ds| == 0 then Ok(cfg)
    else
      match ApplyDirective(cfg, ds[0])
      case Err(e) => Err(e)
      case Ok(c) => ApplyAll(c, ds[1..])
  }

  /** Whatever lines are read, the cookie pattern matches the cookie name in
      force. */
  lemma {:induction false} ApplyAllKeepsPattern(cfg: Config, ds: seq<Directive>)
    requires PatternCurrent(cfg)
    ensures ApplyAll(cfg, ds).Ok? ==> PatternCurrent(ApplyAll(cfg, ds).value)
    decreases |ds|
  {
    if |ds| > 0 {
      match ApplyDirective(cfg, ds[0])
      case Err(_) =>
      case Ok(c) => ApplyAllKeepsPattern(c, ds[1..]);
    }
  }

  /** In particular every configuration the server builds has a current
      pattern. */
  lemma ConfiguredPatternCurrent(ds: seq<Directive>)
    ensures ApplyAll(Default(), ds).Ok? ==> PatternCurrent(ApplyAll(Default(), ds).value)
  {
    ApplyAllKeepsPattern(Default(), ds);
  }

  /** Every spelling of a directive's name, in any case, selects its
      field: the names of the table are told apart by their length or by
      their seventh character. */
  lemma FieldNamedComplete(name: string, f: Field)
    requires EqualsIgnoreCase(name, DirectiveName(f))
    ensures FieldNamed(name) == Some(f)
  {
    assert Lower(name[6]) == Lower(DirectiveName(f)[6]);
  }

  /** Two spellings of one name select the same field. */
  lemma FieldNamedIgnoreCase(n1: string, n2: string)
    requires EqualsIgnoreCase(n1, n2)
    ensures FieldNamed(n1) == FieldNamed(n2)
  {
    match FieldNamed(n1)
    case Some(f) =>
      EqualsIgnoreCaseIsEquivalence(n2, n1, DirectiveName(f));
      FieldNamedComplete(n2, f);
    case None =>
      match FieldNamed(n2)
      case Some(f) =>
        EqualsIgnoreCaseIsEquivalence(n1, n2, DirectiveName(f));
        FieldNamedComplete(n1, f);
        assert false;
      case None =>
  }

  /** Apart from the wording of its errors, the handler depends on the
      directive name only through the field it selects. */
  lemma SameFieldSameConfig(cfg: Config, n1: string, n2: string, value: string)
    requires FieldNamed(n1) == FieldNamed(n2)
    ensures SetConfigValue(cfg, n1, value).Ok? <==> SetConfigValue(cfg, n2, value).Ok?
    ensures SetConfigValue(cfg, n1, value).Ok? ==> SetConfigValue(cfg, n1, value) == SetConfigValue(cfg, n2, value)
  {
    if |value| > 0 && FieldNamed(n1).Some? {
      match FieldNamed(n1).value
      case StyleField =>
        assert StyleFromKeyword(value).Some? ==> SetConfigValue(cfg, n1, value) == SetConfigValue(cfg, n2, value);
      case Domain =>
        assert CheckDomain(value).None? ==> SetConfigValue(cfg, n1, value) == SetConfigValue(cfg, n2, value);
      case _ =>
    }
  }

  /** Two spellings of one name configure the same way. */
  lemma DirectiveNamesIgnoreCase(cfg: Config, n1: string, n2: string, value: string)
    requires EqualsIgnoreCase(n1, n2)
    ensures FieldNamed(n1) == FieldNamed(n2)
    ensures SetConfigValue(cfg, n1, value).Ok? <==> SetConfigValue(cfg, n2, value).Ok?
    ensures SetConfigValue(cfg, n1, value).Ok? ==> SetConfigValue(cfg, n1, value) == SetConfigValue(cfg, n2, value)
  {
    FieldNamedIgnoreCase(n1, n2);
    SameFieldSameConfig(cfg, n1, n2, value);
  }

  /** A non-empty value given to a directive named in any case lands in
      that directive's field and nowhere else: the plain names and the
      address header are replaced, CookieStyle and CookieDomain store the
      value only when it passes their check, CookieName also rebuilds the
      pattern, and the two exemption lists grow by the value at their end. */
  lemma ValueDirectiveStores(cfg: Config, name: string, f: Field, v: string)
    requires EqualsIgnoreCase(name, DirectiveName(f)) && |v| > 0
    ensures var r := SetConfigValue(cfg, name, v);
      && (f == HeaderName ==> r == Ok(cfg.(headerName := v)))
      && (f == NoteName ==> r == Ok(cfg.(noteName := v)))
      && (f == GeneratedNoteName ==> r == Ok(cfg.(generatedNoteName := v)))
      && (f == DntValue ==> r == Ok(cfg.(dntValue := v)))
      && (f == IpHeader ==> r == Ok(cfg.(ipHeader := Some(v))))
      && (f == StyleField ==> r == match StyleFromKeyword(v)
                                   case Some(s) => Ok(cfg.(style := s))
                                   case None => Err("Invalid " + name + ": " + v))
      && (f == Domain ==> r == match CheckDomain(v)
                               case None => Ok(cfg.(cookieDomain := Some(v)))
                               case Some(e) => Err(e))
      && (f == Name ==> r == Ok(cfg.(cookieName := v, regexp := RegexpText(v))) && PatternCurrent(r.value))
      && (f == DntExempt ==> r == Ok(cfg.(dntExempt := cfg.dntExempt + [v])))
      && (f == DntExemptBrowsers ==> r == Ok(cfg.(dntExemptBrowsers := cfg.dntExemptBrowsers + [v])))
  {
    FieldNamedComplete(name, f);
  }

  /** Each on/off directive, named in any case, sets its own flag. */
  lemma FlagDirectiveSets(cfg: Config, name: string, on: bool)
    ensures EqualsIgnoreCase(name, "CookieTracking") ==> SetConfigFlag(cfg, name, on) == Ok(cfg.(enabled := on))
    ensures EqualsIgnoreCase(name, "CookieSendHeader") ==> SetConfigFlag(cfg, name, on) == Ok(cfg.(sendHeader := on))
    ensures EqualsIgnoreCase(name, "CookieSetDNTCookie") ==> SetConfigFlag(cfg, name, on) == Ok(cfg.(setDntCookie := on))
    ensures EqualsIgnoreCase(name, "CookieDNTComply") ==> SetConfigFlag(cfg, name, on) == Ok(cfg.(complyWithDnt := on))
  {
  }

  /** CookieDomain accepts exactly the values that begin with a dot and
      hold another one, and stores them as given. */
  lemma DomainRule(cfg: Config, v: string)
    ensures var r := SetConfigValue(cfg, "CookieDomain", v);
      && (r.Ok? <==> |v| > 0 && v[0] == '.' && exists i :: 1 <= i < |v| && v[i] == '.')
      && (r.Ok? ==> r.value.cookieDomain == Some(v))
      && (|v| > 0 && v[0] != '.' ==> r == Err(DomainNeedsDot))
  {
    EqualsIgnoreCaseIsEquivalence("CookieDomain", "CookieDomain", "CookieDomain");
    FieldNamedComplete("CookieDomain", Domain);
  }

  /** The keyword each style is configured with. */
  function StyleKeyword(s: Style): string {
    match s
    case Unset => ""
    case Netscape => "Netscape"
    case Cookie => "Cookie"
    case Cookie2 => "Cookie2"
  }

  /** Every configurable style is reached by its keyword, in any case. */
  lemma StyleKeywordRoundTrip(s: Style, v: string)
    requires s != Unset && EqualsIgnoreCase(v, StyleKeyword(s))
    ensures StyleFromKeyword(v) == Some(s)
  {
    if s == Cookie2 {
      assert Lower(v[0]) == Lower('C') != Lower('R');
    }
  }

  /** The RFC names are synonyms of the Cookie and Cookie2 styles. */
  lemma RfcStyleSynonyms(v: string)
    ensures EqualsIgnoreCase(v, "RFC2109") ==> StyleFromKeyword(v) == Some(Cookie)
    ensures EqualsIgnoreCase(v, "RFC2965") ==> StyleFromKeyword(v) == Some(Cookie2)
  {
    if EqualsIgnoreCase(v, "RFC2965") {
      assert Lower(v[0]) == Lower('R') != Lower('C');
      assert Lower(v[4]) == Lower('9') != Lower('1');
    }
  }
}

=== FILE: expires.dfy ===
/** The CookieExpires directive (set_cookie_exp): a plain number of seconds,
    or a mod_expires style duration "[plus] {<num> <type>}*". */
module Expires {

  import opened Wrappers
  import opened Text
  import opened Decimal
  import opened Settings

  /** The number of leading characters of s up to the first white space. */
  function WordLength(s: string): (n: nat)
    ensures n <= |s|
    ensures forall m :: 0 <= m < n ==> !IsSpace(s[m])
    ensures n < |s| ==> IsSpace(s[n])
  {
    if |s| == 0 || IsSpace(s[0]) then 0 else 1 + WordLength(s[1..])
  }

  /** The words the configuration reader (ap_getword_conf) yields from the
      argument, in order: maximal runs of non-space characters. Once they
      run out it yields the empty word. */
  function Words(s: string): (ws: seq<string>)
    ensures forall k :: 0 <= k < |ws| ==> |ws[k]| > 0
    decreases |s|
  {
    if |s| == 0 then []
    else if IsSpace(s[0]) then Words(s[1..])
    else
      var n := WordLength(s);
      [s[..n]] + Words(s[n..])
  }

  /** Seconds per unit word, recognised by its leading letters in this
      order, ignoring case: y(ears), mo(nths), w(eeks), d(ays), h(ours),
      mi(nutes), s(econds). Each test compares one or two characters, so a
      lone "m" names neither months nor minutes. */
  function UnitSeconds(w: string): Option<nat> {
    if PrefixIgnoreCase(w, "years", 1) then Some(60 * 60 * 24 * 365)
    else if PrefixIgnoreCase(w, "months", 2) then Some(60 * 60 * 24 * 30)
    else if PrefixIgnoreCase(w, "weeks", 1) then Some(60 * 60 * 24 * 7)
    else if PrefixIgnoreCase(w, "days", 1) then Some(60 * 60 * 24)
    else if PrefixIgnoreCase(w, "hours", 1) then Some(60 * 60)
    else if PrefixIgnoreCase(w, "minutes", 2) then Some(60)
    else if PrefixIgnoreCase(w, "seconds", 1) then Some(1)
    else None
  }

  /** A count of units in seconds (factor * num), written as repeated
      addition so that the sums below stay linear. */
  function Scaled(factor: nat, n: nat): nat
    decreases n
  {
    if n == 0 then 0 else factor + Scaled(factor, n - 1)
  }

  lemma {:induction false} ScaledIsProduct(factor: nat, n: nat)
    ensures Scaled(factor, n) == factor * n
    decreases n
  {
    if n > 0 {
      ScaledIsProduct(factor, n - 1);
      assert factor * n == factor + factor * (n - 1);
    }
  }

  /** The ways an argument is rejected. */
  datatype BadCode = NumberExpected | MissingType | UnknownType

  /** The error text the directive reports for each. */
  function Message(e: BadCode): string {
    match e
    case NumberExpected => "bad expires code, numeric value expected."
    case MissingType => "bad expires code, missing <type>"
    case UnknownType => "bad expires code, unrecognized type"
  }

  /** What the loop looks at in one word: whether it is the empty word that
      ends the list, whether it starts with a digit, its value as atoi reads
      it, and the unit it names. */
  datatype Reading = Reading(isEnd: bool, isNumber: bool, number: nat, factor: Option<nat>)

  function Read(w: string): Reading {
    Reading(|w| == 0, |w| > 0 && IsDigit(w[0]), LeadingValue(w), UnitSeconds(w))
  }

  function Readings(ws: seq<string>): (rs: seq<Reading>)
    ensures |rs| == |ws|
  {
    if |ws| == 0 then [] else [Read(ws[0])] + Readings(ws[1..])
  }

  /** The {<num> <type>}* loop over the remaining words, adding each
      number times its unit to the running total. */
  function SumTerms(rs: seq<Reading>, total: int): Result<int, BadCode>
    decreases |rs|
  {
    if |rs| == 0 || rs[0].isEnd then Ok(total)
    else if !rs[0].isNumber then Err(NumberExpected)
    else if |rs| == 1 || rs[1].isEnd then Err(MissingType)
    else
      match rs[1].factor
      case None => Err(UnknownType)
      case Some(f) => SumTerms(rs[2..], total + Scaled(f, rs[0].number))
  }

  /** The lifetime in seconds a CookieExpires argument denotes. An argument
      that starts and ends with a digit takes the fast path and is read as
      its leading number (atol); otherwise its words are parsed as an
      optional first word starting with "p" (for "plus") followed by
      number/unit pairs. */
  function ParseExpires(arg: string): (r: Result<int, BadCode>)
    ensures r.Ok? ==> r.value >= 0
  {
    if FastPath(arg) then Ok(LeadingValue(arg))
    else
      var terms := DropPlus(Words(arg));
      SumTermsNonNegative(Readings(terms), 0);
      SumTerms(Readings(terms), 0)
  }

  /** An argument off the fast path is read word by word. */
  lemma ParseWords(arg: string)
    requires !FastPath(arg)
    ensures ParseExpires(arg) == SumTerms(Readings(DropPlus(Words(arg))), 0)
  {
  }

  /** The argument starts and ends with a digit. */
  predicate FastPath(arg: string) {
    |arg| > 0 && IsDigit(arg[0]) && IsDigit(arg[|arg| - 1])
  }

  /** The words after an optional first word starting with "p". */
  function DropPlus(ws: seq<string>): seq<string> {
    if |ws| > 0 && PrefixIgnoreCase(ws[0], "plus", 1) then ws[1..] else ws
  }

  lemma {:induction false} SumTermsNonNegative(rs: seq<Reading>, total: int)
    requires total >= 0
    ensures SumTerms(rs, total).Ok? ==> SumTerms(rs, total).value >= total
    decreases |rs|
  {
    if |rs| >= 2 && !rs[0].isEnd && rs[0].isNumber && !rs[1].isEnd && rs[1].factor.Some? {
      SumTermsNonNegative(rs[2..], total + Scaled(rs[1].factor.value, rs[0].number));
    }
  }

  /** The directive: on success the lifetime is replaced and nothing else in
      the configuration changes; on failure the error text is returned. */
  function SetCookieExpires(cfg: Config, arg: string): (r: Result<Config, string>)
    ensures r.Ok? <==> ParseExpires(arg).Ok?
    ensures r.Ok? ==> r.value == cfg.(expires := ParseExpires(arg).value)
    ensures r.Err? ==> r.error == Message(ParseExpires(arg).error)
    ensures r.Ok? && PatternCurrent(cfg) ==> PatternCurrent(r.value)
  {
    match ParseExpires(arg)
    case Ok(n) => Ok(cfg.(expires := n))
    case Err(e) => Err(Message(e))
  }

  /** The duration units, spelled in full as the directive's documentation
      names them. */
  datatype Unit = Years | Months | Weeks | Days | Hours | Minutes | Seconds

  function UnitName(u: Unit): string {
    match u
    case Years => "years"
    case Months => "months"
    case Weeks => "weeks"
    case Days => "days"
    case Hours => "hours"
    case Minutes => "minutes"
    case Seconds => "seconds"
  }

  function UnitLength(u: Unit): nat {
    match u
    case Years => 31536000
    case Months => 2592000
    case Weeks => 604800
    case Days => 86400
    case Hours => 3600
    case Minutes => 60
    case Seconds => 1
  }

  /** Every unit spelled in full is recognised with its length. */
  lemma UnitNameRecognised(u: Unit)
    ensures UnitSeconds(UnitName(u)) == Some(UnitLength(u))
  {
    var w := UnitName(u);
    match u
    case Years => assert Lower(w[0]) == 'y';
    case Months => assert Lower(w[0]) == 'm' && Lower(w[1]) == 'o';
    case Weeks => assert Lower(w[0]) == 'w';
    case Days => assert Lower(w[0]) == 'd';
    case Hours => assert Lower(w[0]) == 'h';
    case Minutes => assert Lower(w[0]) == 'm' && Lower(w[1]) == 'i';
    case Seconds => assert Lower(w[0]) == 's';
  }

  datatype Term = Term(count: nat, unit: Unit)

  /** The words of a duration "<n1> <unit1> <n2> <unit2> ...". */
  function TermWords(ts: seq<Term>): seq<string> {
    if |ts| == 0 then [] else [NatToString(ts[0].count), UnitName(ts[0].unit)] + TermWords(ts[1..])
  }

  /** A duration written out with single spaces. */
  function FormatTerms(ts: seq<Term>): string {
    if |ts| == 0 then ""
    else if |ts| == 1 then NatToString(ts[0].count) + (" " + UnitName(ts[0].unit))
    else NatToString(ts[0].count) + (" " + (UnitName(ts[0].unit) + (" " + FormatTerms(ts[1..]))))
  }

  /** The seconds a duration denotes. */
  function Total(ts: seq<Term>): nat {
    if |ts| == 0 then 0 else TermSeconds(ts[0]) + Total(ts[1..])
  }

  function TermSeconds(t: Term): nat {
    Scaled(UnitLength(t.unit), t.count)
  }

  /** A number written with %d takes the fast path and reads back as
      itself. */
  lemma FastPathRoundTrip(n: nat)
    ensures ParseExpires(NatToString(n)) == Ok(n)
  {
    var s := NatToString(n);
    assert IsDigit(s[0]) && IsDigit(s[|s| - 1]);
    LeadingValueRoundTrip(n, "");
    assert s + "" == s;
  }

  /** The fast path reads only the leading number of an argument that
      starts and ends with a digit, whatever lies between. */
  lemma FastPathReadsLeadingNumber()
    ensures ParseExpires("1 hours 30") == Ok(1)
  {
    LeadingValueRoundTrip(1, " hours 30");
    assert NatToString(1) == "1";
    assert "1" + " hours 30" == "1 hours 30";
  }

  /** An empty argument has no first digit, so it skips the fast path; it
      holds no words, so the lifetime is 0, a session cookie. */
  lemma EmptyArgumentIsSession()
    ensures ParseExpires("") == Ok(0)
  {
  }

  lemma {:induction false} WordLengthOf(w: string, rest: string)
    requires forall m :: 0 <= m < |w| ==> !IsSpace(w[m])
    requires |rest| == 0 || IsSpace(rest[0])
    ensures WordLength(w + rest) == |w|
    decreases |w|
  {
    if |w| > 0 {
      assert (w + rest)[1..] == w[1..] + rest;
      WordLengthOf(w[1..], rest);
    } else {
      assert w + rest == rest;
    }
  }

  /** A word followed by white space or the end is read as one word. */
  lemma WordsOfWord(w: string, rest: string)
    requires |w| > 0 && forall m :: 0 <= m < |w| ==> !IsSpace(w[m])
    requires |rest| == 0 || IsSpace(rest[0])
    ensures Words(w + rest) == [w] + Words(rest)
  {
    WordLengthOf(w, rest);
    assert (w + rest)[..|w|] == w;
    assert (w + rest)[|w|..] == rest;
  }

  lemma NoSpaceInNumber(n: nat)
    ensures forall m :: 0 <= m < |NatToString(n)| ==> !IsSpace(NatToString(n)[m])
  {
    var s := NatToString(n);
    assert AllDigits(s);
    assert forall m :: 0 <= m < |s| ==> IsDigit(s[m]);
  }

  lemma NoSpaceInUnit(u: Unit)
    ensures |UnitName(u)| > 0 && forall m :: 0 <= m < |UnitName(u)| ==> !IsSpace(UnitName(u)[m])
  {
  }

  lemma SpaceSkipped(rest: string)
    ensures Words(" " + rest) == Words(rest)
  {
    assert (" " + rest)[1..] == rest;
  }

  lemma TwoWords(a: string, b: string, tail: string)
    requires |a| > 0 && forall m :: 0 <= m < |a| ==> !IsSpace(a[m])
    requires |b| > 0 && forall m :: 0 <= m < |b| ==> !IsSpace(b[m])
    requires |tail| == 0 || IsSpace(tail[0])
    ensures Words(a + (" " + (b + tail))) == [a, b] + Words(tail)
  {
    var x := b + tail;
    var w := Words(tail);
    WordsOfWord(b, tail);
    assert Words(x) == [b] + w;
    SpaceSkipped(x);
    assert Words(" " + x) == [b] + w;
    WordsOfWord(a, " " + x);
    assert Words(a + (" " + x)) == [a] + ([b] + w);
    assert [a] + ([b] + w) == [a, b] + w;
  }

  lemma FormatTermsStep(ts: seq<Term>)
    requires |ts| > 0
    ensures Words(FormatTerms(ts))
            == [NatToString(ts[0].count), UnitName(ts[0].unit)] + (if |ts| == 1 then [] else Words(FormatTerms(ts[1..])))
  {
    var num, unit := NatToString(ts[0].count), UnitName(ts[0].unit);
    NoSpaceInNumber(ts[0].count);
    NoSpaceInUnit(ts[0].unit);
    if |ts| == 1 {
      TwoWords(num, unit, "");
      assert unit + "" == unit;
    } else {
      TwoWords(num, unit, " " + FormatTerms(ts[1..]));
      SpaceSkipped(FormatTerms(ts[1..]));
    }
  }

  /** A duration written with single spaces splits back into its words. */
  lemma {:induction false} FormatTermsWords(ts: seq<Term>)
    ensures Words(FormatTerms(ts)) == TermWords(ts)
    decreases |ts|
  {
    if |ts| > 0 {
      FormatTermsStep(ts);
      if |ts| > 1 {
        FormatTermsWords(ts[1..]);
      } else {
        assert TermWords(ts[1..]) == [];
      }
    }
  }

  lemma {:induction false} TermWordsNonEmpty(ts: seq<Term>)
    ensures |TermWords(ts)| == 2 * |ts|
    ensures forall k :: 0 <= k < |TermWords(ts)| ==> |TermWords(ts)[k]| > 0
    decreases |ts|
  {
    if |ts| > 0 {
      TermWordsNonEmpty(ts[1..]);
      NoSpaceInUnit(ts[0].unit);
    }
  }

  /** One number/unit pair is read and the loop goes on with the rest. */
  lemma SumTermsStep(x: Reading, y: Reading, rest: seq<Reading>, total: int, num: nat, factor: nat)
    requires !x.isEnd && x.isNumber && x.number == num
    requires !y.isEnd && y.factor == Some(factor)
    ensures SumTerms([x, y] + rest, total) == SumTerms(rest, total + Scaled(factor, num))
  {
    var rs := [x, y] + rest;
    assert rs[0] == x && rs[1] == y && rs[2..] == rest;
  }

  lemma ReadingsOfPair(a: string, b: string, rest: seq<string>)
    ensures Readings([a, b] + rest) == [Read(a), Read(b)] + Readings(rest)
  {
    var ws := [a, b] + rest;
    assert ws[0] == a && ws[1..][0] == b && ws[1..][1..] == rest;
  }

  /** A count written in decimal reads as that number and names no unit. */
  lemma ReadNumberWord(c: nat)
    ensures Read(NatToString(c)) == Reading(false, true, c, None)
  {
    var a := NatToString(c);
    LeadingValueRoundTrip(c, "");
    assert a + "" == a;
    assert IsDigit(a[0]);
  }

  /** A unit's name reads as its length in seconds and is no number. */
  lemma ReadUnitWord(u: Unit)
    ensures Read(UnitName(u)) == Reading(false, false, 0, Some(UnitLength(u)))
  {
    UnitNameRecognised(u);
    var w := UnitName(u);
    assert !IsDigit(w[0]);
  }

  /** The readings of a written duration, term by term. */
  function TermReadings(ts: seq<Term>): (rs: seq<Reading>)
    ensures |rs| == 2 * |ts|
  {
    if |ts| == 0 then []
    else [Reading(false, true, ts[0].count, None), Reading(false, false, 0, Some(UnitLength(ts[0].unit)))]
         + TermReadings(ts[1..])
  }

  lemma {:induction false} ReadingsOfTermWords(ts: seq<Term>)
    ensures Readings(TermWords(ts)) == TermReadings(ts)
    decreases |ts|
  {
    if |ts| == 0 {
      assert TermWords(ts) == [];
    } else {
      var a, b, rest := NatToString(ts[0].count), UnitName(ts[0].unit), TermWords(ts[1..]);
      assert TermWords(ts) == [a, b] + rest;
      ReadingsOfPair(a, b, rest);
      ReadNumberWord(ts[0].count);
      ReadUnitWord(ts[0].unit);
      ReadingsOfTermWords(ts[1..]);
    }
  }

  /** The number/unit loop adds up a written duration exactly. */
  lemma {:induction false} SumTermReadings(ts: seq<Term>, total: int)
    ensures SumTerms(TermReadings(ts), total) == Ok(total + Total(ts))
    decreases |ts|
  {
    if |ts| > 0 {
      var x := Reading(false, true, ts[0].count, None);
      var y := Reading(false, false, 0, Some(UnitLength(ts[0].unit)));
      assert TermReadings(ts) == [x, y] + TermReadings(ts[1..]);
      SumTermsStep(x, y, TermReadings(ts[1..]), total, ts[0].count, UnitLength(ts[0].unit));
      SumTermReadings(ts[1..], total + TermSeconds(ts[0]));
    }
  }

  /** A duration written out parses to the seconds it denotes. */
  lemma ParseFormattedTerms(ts: seq<Term>)
    ensures ParseExpires(FormatTerms(ts)) == Ok(Total(ts))
  {
    FormattedIsWordwise(ts);
    FormattedWordsAreTerms(ts);
    ParseTermWords(FormatTerms(ts), ts);
  }

  /** Any argument off the fast path whose words are those of a written
      duration parses to the seconds it denotes. */
  lemma ParseTermWords(arg: string, ts: seq<Term>)
    requires !FastPath(arg) && DropPlus(Words(arg)) == TermWords(ts)
    ensures ParseExpires(arg) == Ok(Total(ts))
  {
    ParseWords(arg);
    assert Readings(DropPlus(Words(arg))) == TermReadings(ts) by {
      ReadingsOfTermWords(ts);
    }
    SumTermReadings(ts, 0);
  }

  lemma FormattedIsWordwise(ts: seq<Term>)
    ensures !FastPath(FormatTerms(ts))
  {
    FormatTermsEnd(ts);
  }

  lemma FormattedWordsAreTerms(ts: seq<Term>)
    ensures DropPlus(Words(FormatTerms(ts))) == TermWords(ts)
  {
    var ws := TermWords(ts);
    FormatTermsWords(ts);
    TermWordsNonEmpty(ts);
    if |ts| > 0 {
      assert IsDigit(ws[0][0]);
      assert !PrefixIgnoreCase(ws[0], "plus", 1);
    }
  }

  /** The same with the leading "plus". */
  lemma ParsePlusFormattedTerms(ts: seq<Term>)
    ensures ParseExpires("plus " + FormatTerms(ts)) == Ok(Total(ts))
  {
    PlusFormattedWords(ts);
    ParseTermWords("plus " + FormatTerms(ts), ts);
  }

  lemma PlusFormattedWords(ts: seq<Term>)
    ensures var arg := "plus " + FormatTerms(ts);
      !FastPath(arg) && DropPlus(Words(arg)) == TermWords(ts)
  {
    var f := FormatTerms(ts);
    var arg := "plus " + f;
    assert Words(arg) == ["plus"] + Words(f) by {
      assert arg == "plus" + (" " + f);
      WordsOfWord("plus", " " + f);
      assert (" " + f)[1..] == f;
    }
    FormatTermsWords(ts);
    assert (["plus"] + TermWords(ts))[1..] == TermWords(ts);
  }

  lemma FormatTermsEnd(ts: seq<Term>)
    ensures |FormatTerms(ts)| > 0 ==> !IsDigit(FormatTerms(ts)[|FormatTerms(ts)| - 1])
    decreases |ts|
  {
    if |ts| == 1 {
      var u := UnitName(ts[0].unit);
      assert FormatTerms(ts)[|FormatTerms(ts)| - 1] == u[|u| - 1];
    } else if |ts| > 1 {
      FormatTermsEnd(ts[1..]);
      var t := FormatTerms(ts[1..]);
      assert |t| > 0;
      assert FormatTerms(ts)[|FormatTerms(ts)| - 1] == t[|t| - 1];
    }
  }

  /** A number without its unit is rejected. */
  lemma MissingTypeError()
    ensures ParseExpires("plus 3") == Err(MissingType)
  {
    MissingTypeWords();
    ParseWords("plus 3");
    var x := Read("3");
    assert Readings(["3"]) == [x];
    assert !x.isEnd && x.isNumber;
  }

  lemma MissingTypeWords()
    ensures !FastPath("plus 3") && DropPlus(Words("plus 3")) == ["3"]
  {
    WordsOfWord("3", "");
    assert "3" + "" == "3";
    SpaceSkipped("3");
    WordsOfWord("plus", " 3");
    assert "plus" + " 3" == "plus 3";
    assert Words("plus 3") == ["plus", "3"];
  }

  lemma WordsOfThree(a: string, b: string, c: string)
    requires |a| > 0 && forall m :: 0 <= m < |a| ==> !IsSpace(a[m])
    requires |b| > 0 && forall m :: 0 <= m < |b| ==> !IsSpace(b[m])
    requires |c| > 0 && forall m :: 0 <= m < |c| ==> !IsSpace(c[m])
    ensures Words(a + (" " + (b + (" " + c)))) == [a, b, c]
  {
    WordsOfWord(c, "");
    assert c + "" == c;
    SpaceSkipped(c);
    TwoWords(a, b, " " + c);
  }

  /** A unit where a number belongs is rejected. */
  lemma NumberExpectedError()
    ensures ParseExpires("plus x days") == Err(NumberExpected)
  {
    NumberExpectedWords();
    ParseWords("plus x days");
    ReadingsOfPair("x", "days", []);
    assert ["x", "days"] + [] == ["x", "days"];
    StopsAtNonNumber(Read("x"), [Read("days")], 0);
  }

  lemma NumberExpectedWords()
    ensures !FastPath("plus x days") && DropPlus(Words("plus x days")) == ["x", "days"]
  {
    var arg := "plus x days";
    assert Words(arg) == ["plus", "x", "days"] by {
      WordsOfThree("plus", "x", "days");
      assert "plus" + (" " + ("x" + (" " + "days"))) == arg;
    }
    assert PrefixIgnoreCase("plus", "plus", 1);
    assert ["plus", "x", "days"][1..] == ["x", "days"];
  }

  /** The loop stops at a word that should be a number and is not. */
  lemma StopsAtNonNumber(x: Reading, rest: seq<Reading>, total: int)
    requires !x.isEnd && !x.isNumber
    ensures SumTerms([x] + rest, total) == Err(NumberExpected)
  {
    assert ([x] + rest)[0] == x;
  }

  /** A word whose first letter starts no unit names none. */
  lemma UnknownUnit(w: string)
    requires |w| > 0 && Lower(w[0]) !in {'y', 'm', 'w', 'd', 'h', 's'}
    ensures UnitSeconds(w) == None
  {
  }

  /** The unit a word names is decided by its first letter, and for "m"
      by its second: "mo" is months, "mi" minutes, and any other "m" word
      names no unit. */
  lemma UnitLetters(w: string)
    requires |w| > 0
    ensures Lower(w[0]) == 'y' ==> UnitSeconds(w) == Some(31536000)
    ensures Lower(w[0]) == 'w' ==> UnitSeconds(w) == Some(604800)
    ensures Lower(w[0]) == 'd' ==> UnitSeconds(w) == Some(86400)
    ensures Lower(w[0]) == 'h' ==> UnitSeconds(w) == Some(3600)
    ensures Lower(w[0]) == 's' ==> UnitSeconds(w) == Some(1)
    ensures Lower(w[0]) == 'm' && |w| > 1 && Lower(w[1]) == 'o' ==> UnitSeconds(w) == Some(2592000)
    ensures Lower(w[0]) == 'm' && |w| > 1 && Lower(w[1]) == 'i' ==> UnitSeconds(w) == Some(60)
    ensures Lower(w[0]) == 'm' && (|w| == 1 || (Lower(w[1]) != 'o' && Lower(w[1]) != 'i')) ==> UnitSeconds(w) == None
  {
  }

  lemma {:induction false} ReadingsAppend(a: seq<string>, b: seq<string>)
    ensures Readings(a + b) == Readings(a) + Readings(b)
    decreases |a|
  {
    if |a| == 0 {
      assert a + b == b;
    } else {
      assert (a + b)[0] == a[0] && (a + b)[1..] == a[1..] + b;
      ReadingsAppend(a[1..], b);
    }
  }

  /** After the words of a written duration, the loop goes on with the
      duration's seconds added. */
  lemma {:induction false} SumTermReadingsThen(ts: seq<Term>, rs: seq<Reading>, total: int)
    ensures SumTerms(TermReadings(ts) + rs, total) == SumTerms(rs, total + Total(ts))
    decreases |ts|
  {
    if |ts| == 0 {
      assert TermReadings(ts) + rs == rs;
    } else {
      var x := Reading(false, true, ts[0].count, None);
      var y := Reading(false, false, 0, Some(UnitLength(ts[0].unit)));
      assert TermReadings(ts) + rs == [x, y] + (TermReadings(ts[1..]) + rs);
      SumTermsStep(x, y, TermReadings(ts[1..]) + rs, total, ts[0].count, UnitLength(ts[0].unit));
      SumTermReadingsThen(ts[1..], rs, total + TermSeconds(ts[0]));
    }
  }

  /** The readings of an argument whose words continue a written duration
      with tail. */
  lemma TermWordsThen(arg: string, ts: seq<Term>, tail: seq<string>)
    requires !FastPath(arg) && DropPlus(Words(arg)) == TermWords(ts) + tail
    ensures ParseExpires(arg) == SumTerms(Readings(tail), Total(ts))
  {
    ParseWords(arg);
    ReadingsAppend(TermWords(ts), tail);
    ReadingsOfTermWords(ts);
    SumTermReadingsThen(ts, Readings(tail), 0);
  }

  /** A number left without its unit at the end is rejected, whatever
      pairs come before it. */
  lemma MissingTypeAfterTerms(arg: string, ts: seq<Term>, n: string)
    requires !FastPath(arg) && DropPlus(Words(arg)) == TermWords(ts) + [n]
    requires |n| > 0 && IsDigit(n[0])
    ensures ParseExpires(arg) == Err(MissingType)
  {
    TermWordsThen(arg, ts, [n]);
    assert Readings([n]) == [Read(n)];
  }

  /** A word that does not start with a digit where a number belongs is
      rejected, whatever pairs come before it. */
  lemma NumberExpectedAfterTerms(arg: string, ts: seq<Term>, w: string, rest: seq<string>)
    requires !FastPath(arg) && DropPlus(Words(arg)) == TermWords(ts) + ([w] + rest)
    requires |w| > 0 && !IsDigit(w[0])
    ensures ParseExpires(arg) == Err(NumberExpected)
  {
    TermWordsThen(arg, ts, [w] + rest);
    ReadingsAppend([w], rest);
    assert Readings([w]) == [Read(w)];
    StopsAtNonNumber(Read(w), Readings(rest), Total(ts));
  }

  /** A number followed by a word that names no unit is rejected, whatever
      pairs come before it. */
  lemma UnknownTypeAfterTerms(arg: string, ts: seq<Term>, n: string, w: string, rest: seq<string>)
    requires !FastPath(arg) && DropPlus(Words(arg)) == TermWords(ts) + ([n, w] + rest)
    requires |n| > 0 && IsDigit(n[0]) && |w| > 0 && UnitSeconds(w).None?
    ensures ParseExpires(arg) == Err(UnknownType)
  {
    TermWordsThen(arg, ts, [n, w] + rest);
    ReadingsOfPair(n, w, rest);
    StopsAtUnknownUnit(Read(n), Read(w), Readings(rest), Total(ts));
  }

  lemma WordsOfTwo(a: string, b: string)
    requires |a| > 0 && forall m :: 0 <= m < |a| ==> !IsSpace(a[m])
    requires |b| > 0 && forall m :: 0 <= m < |b| ==> !IsSpace(b[m])
    ensures Words(a + (" " + b)) == [a, b]
  {
    TwoWords(a, b, "");
    assert b + "" == b;
  }

  /** The loop stops at a pair whose second word names no unit. */
  lemma StopsAtUnknownUnit(x: Reading, y: Reading, rest: seq<Reading>, total: int)
    requires !x.isEnd && x.isNumber && !y.isEnd && y.factor.None?
    ensures SumTerms([x, y] + rest, total) == Err(UnknownType)
  {
    var rs := [x, y] + rest;
    assert rs[0] == x && rs[1] == y;
  }

  lemma UnknownTypeWords(arg: string)
    requires arg == "3 fortnights"
    ensures !FastPath(arg) && DropPlus(Words(arg)) == ["3", "fortnights"]
  {
    var ws := ["3", "fortnights"];
    assert Words(arg) == ws by {
      WordsOfTwo("3", "fortnights");
      assert "3" + (" " + "fortnights") == arg;
    }
    assert DropPlus(ws) == ws by {
      assert !PrefixIgnoreCase(ws[0], "plus", 1);
    }
    assert !IsDigit(arg[|arg| - 1]);
  }

  /** An unknown unit is rejected. */
  lemma UnknownTypeError()
    ensures ParseExpires("3 fortnights") == Err(UnknownType)
  {
    var arg := "3 fortnights";
    UnknownTypeWords(arg);
    ParseWords(arg);
    ReadingsOfPair("3", "fortnights", []);
    assert ["3", "fortnights"] + [] == ["3", "fortnights"];
    UnknownUnit("fortnights");
    StopsAtUnknownUnit(Read("3"), Read("fortnights"), [], 0);
  }
}

=== FILE: headers.dfy ===
/** Request headers as the server's header tables hold them, and the side
    effects the module leaves on a request, in the order it performs them. */
module Headers {

  import opened Wrappers
  import opened Text

  datatype Header = Header(name: string, value: string)

  /** Reading a header table (apr_table_get): names compare case-insensitively
      and the first entry with the name wins. */
  function Lookup(hs: seq<Header>, key: string): (r: Option<string>)
    ensures r.None? <==> forall k :: 0 <= k < |hs| ==> !EqualsIgnoreCase(hs[k].name, key)
    ensures r.Some? ==> exists k :: 0 <= k < |hs| && EqualsIgnoreCase(hs[k].name, key)
                          && r.value == hs[k].value
                          && forall m :: 0 <= m < k ==> !EqualsIgnoreCase(hs[m].name, key)
  {
    if |hs| == 0 then None
    else if EqualsIgnoreCase(hs[0].name, key) then Some(hs[0].value)
    else
      var r := Lookup(hs[1..], key);
      assert r.Some? ==> exists k :: 1 <= k < |hs| && EqualsIgnoreCase(hs[k].name, key)
                            && r.value == hs[k].value
                            && forall m :: 1 <= m < k ==> !EqualsIgnoreCase(hs[m].name, key) by {
        if r.Some? {
          var k :| 0 <= k < |hs[1..]| && EqualsIgnoreCase(hs[1..][k].name, key)
                   && r.value == hs[1..][k].value
                   && forall m :: 0 <= m < k ==> !EqualsIgnoreCase(hs[1..][m].name, key);
          assert forall m :: 1 <= m < k + 1 ==> hs[m] == hs[1..][m - 1];
        }
      }
      r
  }

  /** Appending entries never changes what a name already present reads. */
  lemma {:induction false} LookupAppend(a: seq<Header>, b: seq<Header>, key: string)
    ensures Lookup(a + b, key) == if Lookup(a, key).Some? then Lookup(a, key) else Lookup(b, key)
    decreases |a|
  {
    if |a| == 0 {
      assert a + b == b;
    } else {
      assert (a + b)[1..] == a[1..] + b;
      LookupAppend(a[1..], b, key);
    }
  }

  /** The table with every entry of a name removed (apr_table_unset). */
  function Without(hs: seq<Header>, key: string): (r: seq<Header>)
    ensures |r| <= |hs|
    ensures forall k :: 0 <= k < |r| ==> !EqualsIgnoreCase(r[k].name, key)
  {
    if |hs| == 0 then []
    else if EqualsIgnoreCase(hs[0].name, key) then Without(hs[1..], key)
    else [hs[0]] + Without(hs[1..], key)
  }

  /** Removing one name leaves the reading of every other name as it was. */
  lemma {:induction false} LookupWithout(hs: seq<Header>, key: string, other: string)
    ensures Lookup(Without(hs, key), key) == None
    ensures !EqualsIgnoreCase(other, key) ==> Lookup(Without(hs, key), other) == Lookup(hs, other)
    decreases |hs|
  {
    if |hs| > 0 {
      LookupWithout(hs[1..], key, other);
      if !EqualsIgnoreCase(hs[0].name, key) && !EqualsIgnoreCase(other, key) {
        EqualsIgnoreCaseIsEquivalence(hs[0].name, other, key);
      } else if EqualsIgnoreCase(hs[0].name, key) && !EqualsIgnoreCase(other, key) {
        EqualsIgnoreCaseIsEquivalence(hs[0].name, key, other);
        EqualsIgnoreCaseIsEquivalence(other, hs[0].name, key);
      }
    }
  }

  /** One change the module makes to the request it handles. The two Add
      forms append to a table (apr_table_addn) and never replace an entry;
      SetNote replaces the note of that name (apr_table_setn). */
  datatype Effect =
    | AddRequestHeader(name: string, value: string)
    | AddResponseHeader(name: string, value: string)
    | SetNote(name: string, value: string)

  /** The headers appended to the response, in order. */
  function ResponseAdds(effects: seq<Effect>): (hs: seq<Header>)
    ensures |hs| <= |effects|
  {
    if |effects| == 0 then [] else ResponseHeaderOf(effects[0]) + ResponseAdds(effects[1..])
  }

  function ResponseHeaderOf(e: Effect): (hs: seq<Header>)
    ensures |hs| <= 1
  {
    if e.AddResponseHeader? then [Header(e.name, e.value)] else []
  }

  /** The headers appended to the incoming request, in order. */
  function RequestAdds(effects: seq<Effect>): (hs: seq<Header>)
    ensures |hs| <= |effects|
  {
    if |effects| == 0 then [] else RequestHeaderOf(effects[0]) + RequestAdds(effects[1..])
  }

  function RequestHeaderOf(e: Effect): (hs: seq<Header>)
    ensures |hs| <= 1
  {
    if e.AddRequestHeader? then [Header(e.name, e.value)] else []
  }

  /** The note of a given name once all effects are applied: the value of the
      last SetNote whose name matches case-insensitively. */
  function NoteValue(effects: seq<Effect>, key: string): (r: Option<string>)
    ensures r.None? <==> forall k :: 0 <= k < |effects| ==>
                           !(effects[k].SetNote? && EqualsIgnoreCase(effects[k].name, key))
    ensures r.Some? ==> exists k :: 0 <= k < |effects| && effects[k].SetNote?
                          && EqualsIgnoreCase(effects[k].name, key) && r.value == effects[k].value
                          && forall m :: k < m < |effects| ==>
                               !(effects[m].SetNote? && EqualsIgnoreCase(effects[m].name, key))
    decreases |effects|
  {
    if |effects| == 0 then None
    else
      var last := effects[|effects| - 1];
      if last.SetNote? && EqualsIgnoreCase(last.name, key) then Some(last.value)
      else NoteValue(effects[..|effects| - 1], key)
  }

  lemma {:induction false} ResponseAddsAppend(a: seq<Effect>, b: seq<Effect>)
    ensures ResponseAdds(a + b) == ResponseAdds(a) + ResponseAdds(b)
    decreases |a|
  {
    if |a| == 0 {
      assert a + b == b;
    } else {
      var h := ResponseHeaderOf(a[0]);
      assert (a + b)[0] == a[0] && (a + b)[1..] == a[1..] + b;
      assert ResponseAdds(a + b) == h + ResponseAdds(a[1..] + b);
      ResponseAddsAppend(a[1..], b);
      assert h + (ResponseAdds(a[1..]) + ResponseAdds(b)) == (h + ResponseAdds(a[1..])) + ResponseAdds(b);
    }
  }

  lemma {:induction false} RequestAddsAppend(a: seq<Effect>, b: seq<Effect>)
    ensures RequestAdds(a + b) == RequestAdds(a) + RequestAdds(b)
    decreases |a|
  {
    if |a| == 0 {
      assert a + b == b;
    } else {
      var h := RequestHeaderOf(a[0]);
      assert (a + b)[0] == a[0] && (a + b)[1..] == a[1..] + b;
      assert RequestAdds(a + b) == h + RequestAdds(a[1..] + b);
      RequestAddsAppend(a[1..], b);
      assert h + (RequestAdds(a[1..]) + RequestAdds(b)) == (h + RequestAdds(a[1..])) + RequestAdds(b);
    }
  }

  /** A later SetNote of a name hides every earlier one. */
  lemma {:induction false} NoteValueAppend(a: seq<Effect>, b: seq<Effect>, key: string)
    ensures NoteValue(a + b, key) == if NoteValue(b, key).Some? then NoteValue(b, key) else NoteValue(a, key)
    decreases |b|
  {
    if |b| == 0 {
      assert a + b == a;
    } else {
      assert (a + b)[..|a + b| - 1] == a + b[..|b| - 1];
      NoteValueAppend(a, b[..|b| - 1], key);
    }
  }
}

=== FILE: pattern.dfy ===
/** The cookie-name pattern built by set_and_comp_regexp: the name with every
    non-alphanumeric character escaped, pasted twice into
    `^NAME=([^;,]+)|[;,][ \t]*NAME=([^;,]+)`. */
module CookiePattern {

  import opened Wrappers
  import opened Text

  /** The number of characters set_and_comp_regexp must escape (its danger_chars). */
  function NonAlnumCount(name: string): nat {
    if |name| == 0 then 0
    else (if IsAlnum(name[0]) then 0 else 1) + NonAlnumCount(name[1..])
  }

  /** The name with a backslash put before every non-alphanumeric character. */
  function Escape(name: string): (e: string)
    ensures |e| == |name| + NonAlnumCount(name)
  {
    if |name| == 0 then ""
    else (if IsAlnum(name[0]) then [name[0]] else ['\\', name[0]]) + Escape(name[1..])
  }

  /** The text a pattern fragment matches when it is made only of literal
      atoms in the regular-expression dialect the server uses: an alphanumeric
      character stands for itself, and a backslash followed by a
      non-alphanumeric character stands for that character. Any other
      fragment (a bare metacharacter, a backslash before a letter such as
      `\d`, a trailing backslash) is not a literal: None. */
  function LiteralText(p: string): Option<string> {
    if |p| == 0 then Some("")
    else if p[0] == '\\' then
      if |p| >= 2 && !IsAlnum(p[1]) then
        match LiteralText(p[2..])
        case Some(t) => Some([p[1]] + t)
        case None => None
      else None
    else if IsAlnum(p[0]) then
      match LiteralText(p[1..])
      case Some(t) => Some([p[0]] + t)
      case None => None
    else None
  }

  /** Escaping makes any cookie name, whatever characters it holds, a pure
      literal that matches exactly the name, so the pattern can only find the
      name itself. */
  lemma {:induction false} EscapeIsLiteral(name: string)
    ensures LiteralText(Escape(name)) == Some(name)
    decreases |name|
  {
    if |name| > 0 {
      var rest := Escape(name[1..]);
      EscapeIsLiteral(name[1..]);
      if IsAlnum(name[0]) {
        assert Escape(name) == [name[0]] + rest;
        assert Escape(name)[1..] == rest;
      } else {
        assert Escape(name) == ['\\', name[0]] + rest;
        assert Escape(name)[2..] == rest;
      }
      assert [name[0]] + name[1..] == name;
    }
  }

  /** A name made only of letters and digits is pasted unchanged. */
  lemma {:induction false} EscapeAlnumUnchanged(name: string)
    requires forall i :: 0 <= i < |name| ==> IsAlnum(name[i])
    ensures Escape(name) == name
    decreases |name|
  {
    if |name| > 0 {
      EscapeAlnumUnchanged(name[1..]);
      assert [name[0]] + name[1..] == name;
    }
  }

  /** The regular expression text stored for a cookie name. */
  function RegexpText(name: string): string {
    "^" + Escape(name) + "=([^;,]+)|[;,][ \t]*" + Escape(name) + "=([^;,]+)"
  }
}

=== FILE: render.dfy ===
/** The cookie renderer (make_cookie): the exact Set-Cookie / Set-Cookie2
    text in its three expiry dialects, and the changes it makes to the
    request. */
module Render {

  import opened Wrappers
  import opened Text
  import opened Decimal
  import opened Settings
  import opened Headers

  /** The broken-down GMT time the server computes for request time plus the
      configured lifetime (the apr_time_exp_t fields the formatter reads);
      year counts from 1900, month and weekday from 0. */
  datatype TimeFields = TimeFields(wday: int, mday: int, mon: int, year: int, hour: int, min: int, sec: int)

  /** The fields used as indexes into the day and month name tables are in range. */
  predicate Indexable(t: TimeFields) {
    0 <= t.wday < 7 && 0 <= t.mon < 12
  }

  /** A calendar time after 1900, as the GMT conversion produces. */
  predicate CalendarTime(t: TimeFields) {
    && Indexable(t)
    && 1 <= t.mday <= 31 && 0 <= t.year
    && 0 <= t.hour < 24 && 0 <= t.min < 60 && 0 <= t.sec <= 61
  }

  /** The clock readings one request makes: the microsecond timestamp used in
      generated identifiers, the Unix time in seconds used for the DNT
      max-age, and the expiry instant already converted to GMT fields. */
  datatype Clock = Clock(nowMicros: int, unixSeconds: int, expiryTime: TimeFields)

  const DayNames: seq<string> := ["Sun", "Mon", "Tue", "Wed", "Thu", "Fri", "Sat"]
  const MonthNames: seq<string> :=
    ["Jan", "Feb", "Mar", "Apr", "May", "Jun", "Jul", "Aug", "Sep", "Oct", "Nov", "Dec"]

  /** C's % on int, which truncates toward zero: the remainder takes the
      dividend's sign, is smaller than the divisor in magnitude, and differs
      from the dividend by a multiple of the divisor. */
  function CRem(a: int, b: int): (r: int)
    requires b > 0
    ensures a >= 0 ==> r == a % b
    ensures -b < r < b
    ensures a >= 0 ==> r >= 0
    ensures a < 0 ==> r <= 0
    ensures a == b * CQuot(a, b) + r
  {
    if a >= 0 then a % b else -((-a) % b)
  }

  /** C's / on int, which truncates toward zero. */
  function CQuot(a: int, b: int): int
    requires b > 0
  {
    if a >= 0 then a / b else -((-a) / b)
  }

  /** `%s, %.2d-%s-%.2d %.2d:%.2d:%.2d GMT` over the day name, day of month,
      month name, two-digit year, hour, minute and second. */
  function FormatDate(t: TimeFields): string
    requires Indexable(t)
  {
    DayText(t) + " " + ClockText(t) + " GMT"
  }

  /** "Www, dd-Mmm-yy": the year is the tm year (years since 1900) reduced
      with C's remainder. */
  function DayText(t: TimeFields): string
    requires Indexable(t)
  {
    DayNames[t.wday] + ", " + Pad2(t.mday) + "-" + MonthNames[t.mon] + "-" + Pad2(CRem(t.year, 100))
  }

  /** "hh:mm:ss". */
  function ClockText(t: TimeFields): string {
    Pad2(t.hour) + ":" + Pad2(t.min) + ":" + Pad2(t.sec)
  }

  /** The fields a Netscape date text carries. */
  datatype DateView = DateView(wday: nat, mday: nat, mon: nat, yy: nat, hour: nat, min: nat, sec: nat)

  /** The position of s in a name table. */
  function IndexIn(names: seq<string>, s: string): (r: Option<nat>)
    ensures r.Some? ==> r.value < |names| && names[r.value] == s
    ensures r.None? ==> s !in names
  {
    if |names| == 0 then None
    else if names[0] == s then Some(0)
    else match IndexIn(names[1..], s)
      case Some(k) => Some(k + 1)
      case None => None
  }

  /** The two-digit number written at positions k and k + 1. */
  function TwoDigitsAt(s: string, k: nat): Option<nat>
    requires k + 1 < |s|
  {
    if IsDigit(s[k]) && IsDigit(s[k + 1]) then Some(10 * DigitValue(s[k]) + DigitValue(s[k + 1]))
    else None
  }

  /** Reads a date written in the format above back into its fields. */
  function ParseDate(s: string): Option<DateView> {
    if |s| != 27 then None
    else
      var day, month := IndexIn(DayNames, s[..3]), IndexIn(MonthNames, s[8..11]);
      var mday, yy, hh, mi, ss := TwoDigitsAt(s, 5), TwoDigitsAt(s, 12), TwoDigitsAt(s, 15),
                                  TwoDigitsAt(s, 18), TwoDigitsAt(s, 21);
      if && day.Some? && month.Some?
         && mday.Some? && yy.Some? && hh.Some? && mi.Some? && ss.Some?
         && s[3] == ',' && s[4] == ' ' && s[7] == '-' && s[11] == '-' && s[14] == ' '
         && s[17] == ':' && s[20] == ':' && s[23] == ' ' && s[24] == 'G' && s[25] == 'M' && s[26] == 'T'
      then Some(DateView(day.value, mday.value, month.value, yy.value, hh.value, mi.value, ss.value))
      else None
  }

  predicate Distinct(names: seq<string>) {
    forall i, j :: 0 <= i < j < |names| ==> names[i] != names[j]
  }

  /** In a table without repeats, a name is found at its own position. */
  lemma {:induction false} IndexInDistinct(names: seq<string>, k: nat)
    requires Distinct(names) && k < |names|
    ensures IndexIn(names, names[k]) == Some(k)
    decreases k
  {
    if k > 0 {
      assert names[1..][k - 1] == names[k];
      IndexInDistinct(names[1..], k - 1);
    }
  }

  lemma NameTablesDistinct()
    ensures Distinct(DayNames) && Distinct(MonthNames)
  {
    var days, months := DayNames, MonthNames;
    assert forall i :: 0 <= i < 7 ==> |days[i]| == 3;
    assert forall i :: 0 <= i < 12 ==> |months[i]| == 3;
  }

  lemma DayTextLayout(t: TimeFields)
    requires CalendarTime(t)
    ensures var d := DayText(t);
      && |d| == 14 && d[..3] == DayNames[t.wday] && d[8..11] == MonthNames[t.mon]
      && d[3] == ',' && d[4] == ' ' && d[7] == '-' && d[11] == '-'
      && d[5] == Pad2(t.mday)[0] && d[6] == Pad2(t.mday)[1]
      && d[12] == Pad2(t.year % 100)[0] && d[13] == Pad2(t.year % 100)[1]
  {
    var day, md, mon, yy := DayNames[t.wday], Pad2(t.mday), MonthNames[t.mon], Pad2(CRem(t.year, 100));
    assert |day| == 3 && |mon| == 3 && |md| == 2 && |yy| == 2;
    assert CRem(t.year, 100) == t.year % 100;
    var pre := day + ", " + md + "-";
    assert |pre| == 8 && pre[..3] == day;
    var front := pre + mon;
    assert front[..8] == pre && front[8..] == mon;
    assert front[..3] == pre[..3];
    var d := DayText(t);
    assert d == front + "-" + yy;
    assert d[..11] == front;
  }

  lemma ClockTextLayout(t: TimeFields)
    requires CalendarTime(t)
    ensures var c := ClockText(t);
      && |c| == 8 && c[2] == ':' && c[5] == ':'
      && c[0] == Pad2(t.hour)[0] && c[1] == Pad2(t.hour)[1]
      && c[3] == Pad2(t.min)[0] && c[4] == Pad2(t.min)[1]
      && c[6] == Pad2(t.sec)[0] && c[7] == Pad2(t.sec)[1]
  {
    assert |Pad2(t.hour)| == 2 && |Pad2(t.min)| == 2 && |Pad2(t.sec)| == 2;
  }

  /** Where each field sits in the date text. */
  lemma DateLayout(t: TimeFields)
    requires CalendarTime(t)
    ensures var s := FormatDate(t);
      && |s| == 27 && s[..3] == DayNames[t.wday] && s[8..11] == MonthNames[t.mon]
      && s[3] == ',' && s[4] == ' ' && s[7] == '-' && s[11] == '-' && s[14] == ' '
      && s[17] == ':' && s[20] == ':' && s[23] == ' ' && s[24] == 'G' && s[25] == 'M' && s[26] == 'T'
      && s[5] == Pad2(t.mday)[0] && s[6] == Pad2(t.mday)[1]
      && s[12] == Pad2(t.year % 100)[0] && s[13] == Pad2(t.year % 100)[1]
      && s[15] == Pad2(t.hour)[0] && s[16] == Pad2(t.hour)[1]
      && s[18] == Pad2(t.min)[0] && s[19] == Pad2(t.min)[1]
      && s[21] == Pad2(t.sec)[0] && s[22] == Pad2(t.sec)[1]
  {
    var d, c := DayText(t), ClockText(t);
    DayTextLayout(t);
    ClockTextLayout(t);
    var s := FormatDate(t);
    assert s == d + " " + c + " GMT";
    assert s[..14] == d;
    assert s[..3] == d[..3] && s[8..11] == d[8..11];
    assert forall i :: 0 <= i < 8 ==> s[15 + i] == c[i];
  }

  lemma Pad2ReadsBack(s: string, k: nat, n: int)
    requires 0 <= n < 100 && k + 1 < |s|
    requires s[k] == Pad2(n)[0] && s[k + 1] == Pad2(n)[1]
    ensures TwoDigitsAt(s, k) == Some(n)
  {
    var p := Pad2(n);
    Pad2RoundTrip(n);
    assert p[..1][..0] == "" && p[..1] == [p[0]];
  }

  /** The Netscape date text reads back as the time it was written from,
      with the year reduced to its last two digits. */
  lemma FormatDateRoundTrip(t: TimeFields)
    requires CalendarTime(t)
    ensures ParseDate(FormatDate(t))
            == Some(DateView(t.wday, t.mday, t.mon, t.year % 100, t.hour, t.min, t.sec))
  {
    var s := FormatDate(t);
    DateLayout(t);
    NameTablesDistinct();
    IndexInDistinct(DayNames, t.wday);
    IndexInDistinct(MonthNames, t.mon);
    Pad2ReadsBack(s, 5, t.mday);
    Pad2ReadsBack(s, 12, t.year % 100);
    Pad2ReadsBack(s, 15, t.hour);
    Pad2ReadsBack(s, 18, t.min);
    Pad2ReadsBack(s, 21, t.sec);
  }

  /** The fixed DNT expiry text is the date 2038-01-01 00:00:00 GMT, a Friday,
      in the same format as the rolling expiry. */
  lemma DefaultDntExpiresIsNetscapeDate()
    ensures DefaultDntExpires == FormatDate(TimeFields(5, 1, 0, 138, 0, 0, 0))
  {
    var t := TimeFields(5, 1, 0, 138, 0, 0, 0);
    DntDayText(t);
    DntClockText(t);
    var d, c := DayText(t), ClockText(t);
    assert FormatDate(t) == d + " " + c + " GMT";
    assert d + " " + c + " GMT" == "Fri, 01-Jan-38 00:00:00 GMT";
  }

  lemma DntDayText(t: TimeFields)
    requires t == TimeFields(5, 1, 0, 138, 0, 0, 0)
    ensures DayText(t) == "Fri, 01-Jan-38"
  {
    assert Pad2(1) == "01";
    assert NatToString(38) == "38";
    assert Pad2(38) == "38";
  }

  lemma DntClockText(t: TimeFields)
    requires t.hour == 0 && t.min == 0 && t.sec == 0
    ensures ClockText(t) == "00:00:00"
  {
    assert Pad2(0) == "00";
  }

  predicate NetscapeDialect(style: Style) {
    style == Unset || style == Netscape
  }

  /** The response header that carries the cookie. */
  function SetCookieHeaderName(style: Style): string {
    if style == Cookie2 then "Set-Cookie2" else "Set-Cookie"
  }

  /** The expiry attribute. Netscape (and Unset) style writes an expires
      date: the fixed DNT text under DNT, else the request time plus the
      lifetime. The RFC 2109 and RFC 2965 styles write max-age: the seconds
      left until the fixed DNT instant under DNT, else the lifetime. A
      lifetime of 0 writes neither. */
  function ExpiryAttribute(cfg: Config, useDnt: bool, clock: Clock): string
    requires Indexable(clock.expiryTime)
  {
    if cfg.expires == 0 then ""
    else if NetscapeDialect(cfg.style) then "; expires=" + ExpiryValue(cfg, useDnt, clock)
    else "; max-age=" + ExpiryValue(cfg, useDnt, clock)
  }

  /** The text of the expiry attribute in the configured dialect. */
  function ExpiryValue(cfg: Config, useDnt: bool, clock: Clock): string
    requires Indexable(clock.expiryTime)
  {
    if NetscapeDialect(cfg.style) then
      (if useDnt then cfg.dntExpires else FormatDate(clock.expiryTime))
    else
      IntToString(if useDnt then cfg.dntMaxAge - clock.unixSeconds else cfg.expires)
  }

  /** The name of the expiry attribute of a dialect. */
  function ExpiryLabel(style: Style): string {
    if NetscapeDialect(style) then "expires" else "max-age"
  }

  /** The domain attribute, with version=1 after it in the RFC 2965 style. */
  function DomainAttribute(cfg: Config): string {
    match cfg.cookieDomain
    case None => ""
    case Some(d) => "; domain=" + d + (if cfg.style == Cookie2 then "; version=1" else "")
  }

  /** The Set-Cookie text for value uid. */
  function RenderCookie(cfg: Config, uid: string, useDnt: bool, clock: Clock): (c: string)
    requires Indexable(clock.expiryTime)
    ensures cfg.cookieName + "=" + uid + "; path=/" <= c
  {
    cfg.cookieName + "=" + uid + "; path=/" + ExpiryAttribute(cfg, useDnt, clock) + DomainAttribute(cfg)
  }

  /** The value of the first attribute segment ` key=value`. */
  function AttributeIn(segments: seq<string>, key: string): Option<string> {
    if |segments| == 0 then None
    else
      var p := " " + key + "=";
      if p <= segments[0] then Some(segments[0][|p|..]) else AttributeIn(segments[1..], key)
  }

  /** An attribute of a Set-Cookie text, read by splitting it at `;`. */
  function CookieAttribute(cookie: string, key: string): Option<string> {
    AttributeIn(Split(cookie, ';')[1..], key)
  }

  lemma {:induction false} NoSemicolonInDigits(s: string)
    requires AllDigits(s)
    ensures ';' !in s
  {
  }

  lemma NoSemicolonInNumber(n: int)
    ensures ';' !in IntToString(n)
  {
    if n < 0 {
      NoSemicolonInDigits(NatToString(-n));
    } else {
      NoSemicolonInDigits(NatToString(n));
    }
  }

  lemma NoSemicolonInPad2(n: int)
    ensures ';' !in Pad2(n)
  {
    var digits := NatToString(if n < 0 then -n else n);
    NoSemicolonInDigits(digits);
    assert ';' !in "0" + digits;
  }

  lemma NoSemicolonInDate(t: TimeFields)
    requires Indexable(t)
    ensures ';' !in FormatDate(t)
  {
    NoSemicolonInPad2(t.mday);
    NoSemicolonInPad2(CRem(t.year, 100));
    NoSemicolonInPad2(t.hour);
    NoSemicolonInPad2(t.min);
    NoSemicolonInPad2(t.sec);
    assert ';' !in DayNames[t.wday] && ';' !in MonthNames[t.mon];
  }

  /** The expiry attribute as `;`-separated pieces. */
  ghost function ExpiryPieces(cfg: Config, useDnt: bool, clock: Clock): seq<string>
    requires Indexable(clock.expiryTime)
  {
    if cfg.expires == 0 then [] else [" " + ExpiryLabel(cfg.style) + "=" + ExpiryValue(cfg, useDnt, clock)]
  }

  /** The domain attributes as `;`-separated pieces. */
  ghost function DomainPieces(cfg: Config): seq<string> {
    match cfg.cookieDomain
    case None => []
    case Some(d) => [" domain=" + d] + (if cfg.style == Cookie2 then [" version=1"] else [])
  }

  ghost function Pieces(cfg: Config, uid: string, useDnt: bool, clock: Clock): seq<string>
    requires Indexable(clock.expiryTime)
  {
    [cfg.cookieName + "=" + uid, " path=/"] + ExpiryPieces(cfg, useDnt, clock) + DomainPieces(cfg)
  }

  lemma ExpiryPiecesJoin(cfg: Config, useDnt: bool, clock: Clock)
    requires Indexable(clock.expiryTime)
    ensures Tail(ExpiryPieces(cfg, useDnt, clock), ';') == ExpiryAttribute(cfg, useDnt, clock)
  {
    if cfg.expires != 0 {
      var v := ExpiryValue(cfg, useDnt, clock);
      OnePieceTail(ExpiryLabel(cfg.style), v);
      LabelledText(v);
    }
  }

  lemma OnePieceTail(attr: string, v: string)
    ensures Tail([" " + attr + "=" + v], ';') == "; " + attr + "=" + v
  {
    var piece := " " + attr + "=" + v;
    assert Tail([piece], ';') == [';'] + piece + "";
  }

  lemma LabelledText(v: string)
    ensures "; " + "expires" + "=" + v == "; expires=" + v
    ensures "; " + "max-age" + "=" + v == "; max-age=" + v
  {
  }


  lemma DomainPiecesJoin(cfg: Config)
    ensures Tail(DomainPieces(cfg), ';') == DomainAttribute(cfg)
  {
    if cfg.cookieDomain.Some? && cfg.style == Cookie2 {
      TailAppend([" domain=" + cfg.cookieDomain.value], [" version=1"], ';');
    }
  }

  lemma RenderIsJoin(cfg: Config, uid: string, useDnt: bool, clock: Clock)
    requires Indexable(clock.expiryTime)
    ensures RenderCookie(cfg, uid, useDnt, clock) == Join(Pieces(cfg, uid, useDnt, clock), ';')
  {
    var ps := Pieces(cfg, uid, useDnt, clock);
    var ex, dm := ExpiryPieces(cfg, useDnt, clock), DomainPieces(cfg);
    assert ps[1..] == [" path=/"] + ex + dm;
    TailAppend([" path=/"] + ex, dm, ';');
    TailAppend([" path=/"], ex, ';');
    ExpiryPiecesJoin(cfg, useDnt, clock);
    DomainPiecesJoin(cfg);
  }

  lemma {:induction false} NoSeparatorAppend(a: seq<string>, b: seq<string>)
    requires forall k :: 0 <= k < |a| ==> ';' !in a[k]
    requires forall k :: 0 <= k < |b| ==> ';' !in b[k]
    ensures forall k :: 0 <= k < |a + b| ==> ';' !in (a + b)[k]
  {
  }

  lemma PiecesHaveNoSeparator(cfg: Config, uid: string, useDnt: bool, clock: Clock)
    requires Indexable(clock.expiryTime)
    requires ';' !in cfg.cookieName && ';' !in uid && ';' !in cfg.dntExpires
    requires cfg.cookieDomain.Some? ==> ';' !in cfg.cookieDomain.value
    ensures forall k :: 0 <= k < |Pieces(cfg, uid, useDnt, clock)| ==> ';' !in Pieces(cfg, uid, useDnt, clock)[k]
  {
    var ex, dm := ExpiryPieces(cfg, useDnt, clock), DomainPieces(cfg);
    var first := cfg.cookieName + "=" + uid;
    assert ';' !in first;
    NoSemicolonInDate(clock.expiryTime);
    NoSemicolonInNumber(if useDnt then cfg.dntMaxAge - clock.unixSeconds else cfg.expires);
    assert ';' !in ExpiryValue(cfg, useDnt, clock);
    assert forall k :: 0 <= k < |ex| ==> ';' !in ex[k];
    assert forall k :: 0 <= k < |dm| ==> ';' !in dm[k];
    NoSeparatorAppend([first, " path=/"], ex);
    NoSeparatorAppend([first, " path=/"] + ex, dm);
  }

  lemma {:induction false} AttributeInAppend(a: seq<string>, b: seq<string>, key: string)
    ensures AttributeIn(a + b, key) == if AttributeIn(a, key).Some? then AttributeIn(a, key) else AttributeIn(b, key)
    decreases |a|
  {
    if |a| == 0 {
      assert a + b == b;
    } else {
      assert (a + b)[1..] == a[1..] + b;
      AttributeInAppend(a[1..], b, key);
    }
  }

  /** Reading the rendered cookie back: it splits at `;` into the
      name=value pair followed by one segment per attribute. */
  lemma RenderedSegments(cfg: Config, uid: string, useDnt: bool, clock: Clock)
    requires Indexable(clock.expiryTime)
    requires ';' !in cfg.cookieName && ';' !in uid && ';' !in cfg.dntExpires
    requires cfg.cookieDomain.Some? ==> ';' !in cfg.cookieDomain.value
    ensures var parts := Split(RenderCookie(cfg, uid, useDnt, clock), ';');
      && parts[0] == cfg.cookieName + "=" + uid
      && |parts| == 2 + (if cfg.expires != 0 then 1 else 0)
                    + (if cfg.cookieDomain.None? then 0 else if cfg.style == Cookie2 then 2 else 1)
  {
    var ps := Pieces(cfg, uid, useDnt, clock);
    RenderIsJoin(cfg, uid, useDnt, clock);
    PiecesHaveNoSeparator(cfg, uid, useDnt, clock);
    SplitJoin(ps, ';');
  }

  /** Every attribute of the rendered cookie, read back by name: path is
      always /, the expiry attribute of the configured dialect is present
      exactly for a non-zero lifetime (expires in the Netscape dialect,
      max-age in the RFC 2109 and RFC 2965 ones, never both), the domain
      exactly when one is configured, version=1 exactly with a domain in the
      RFC 2965 dialect, and no other attribute. */
  lemma RenderedAttribute(cfg: Config, uid: string, useDnt: bool, clock: Clock, key: string)
    requires Indexable(clock.expiryTime)
    requires ';' !in cfg.cookieName && ';' !in uid && ';' !in cfg.dntExpires
    requires cfg.cookieDomain.Some? ==> ';' !in cfg.cookieDomain.value
    requires '=' !in key
    ensures CookieAttribute(RenderCookie(cfg, uid, useDnt, clock), key)
            == if key == "path" then Some("/")
               else if cfg.expires != 0 && key == ExpiryLabel(cfg.style) then Some(ExpiryValue(cfg, useDnt, clock))
               else if cfg.cookieDomain.Some? && key == "domain" then cfg.cookieDomain
               else if cfg.cookieDomain.Some? && cfg.style == Cookie2 && key == "version" then Some("1")
               else None
  {
    var ps := Pieces(cfg, uid, useDnt, clock);
    RenderIsJoin(cfg, uid, useDnt, clock);
    PiecesHaveNoSeparator(cfg, uid, useDnt, clock);
    SplitJoin(ps, ';');
    assert Split(RenderCookie(cfg, uid, useDnt, clock), ';')[1..] == ps[1..];
    PiecesAttribute(cfg, uid, useDnt, clock, key);
  }

  /** A piece " attr=v" carries attribute key exactly when key is attr. */
  lemma PieceAttribute(key: string, attr: string, v: string)
    requires '=' !in key && '=' !in attr
    ensures AttributeIn([" " + attr + "=" + v], key) == if key == attr then Some(v) else None
  {
    var p, q := " " + key + "=", " " + attr + "=" + v;
    assert forall m :: 0 <= m < |key| ==> p[m + 1] == key[m];
    assert forall m :: 0 <= m < |attr| ==> q[m + 1] == attr[m];
    assert p[|key| + 1] == '=' && q[|attr| + 1] == '=';
    if key == attr {
      assert p <= q && q[|p|..] == v;
    }
  }

  lemma ExpiryPiecesAttribute(cfg: Config, useDnt: bool, clock: Clock, key: string)
    requires Indexable(clock.expiryTime)
    requires '=' !in key
    ensures AttributeIn(ExpiryPieces(cfg, useDnt, clock), key)
            == if cfg.expires != 0 && key == ExpiryLabel(cfg.style) then Some(ExpiryValue(cfg, useDnt, clock)) else None
  {
    if cfg.expires != 0 {
      PieceAttribute(key, ExpiryLabel(cfg.style), ExpiryValue(cfg, useDnt, clock));
    }
  }

  lemma DomainPiecesAttribute(cfg: Config, key: string)
    requires '=' !in key
    ensures AttributeIn(DomainPieces(cfg), key)
            == if cfg.cookieDomain.Some? && key == "domain" then cfg.cookieDomain
               else if cfg.cookieDomain.Some? && cfg.style == Cookie2 && key == "version" then Some("1")
               else None
  {
    if cfg.cookieDomain.Some? {
      var d := cfg.cookieDomain.value;
      var dm := DomainPieces(cfg);
      assert " " + "domain" + "=" == " domain=";
      assert dm == [" " + "domain" + "=" + d] + dm[1..];
      AttributeInAppend([" " + "domain" + "=" + d], dm[1..], key);
      PieceAttribute(key, "domain", d);
      if cfg.style == Cookie2 {
        assert " " + "version" + "=" + "1" == " version=1";
        assert dm[1..] == [" " + "version" + "=" + "1"];
        PieceAttribute(key, "version", "1");
      }
    }
  }

  lemma PiecesAttribute(cfg: Config, uid: string, useDnt: bool, clock: Clock, key: string)
    requires Indexable(clock.expiryTime)
    requires '=' !in key
    ensures AttributeIn(Pieces(cfg, uid, useDnt, clock)[1..], key)
            == if key == "path" then Some("/")
               else if cfg.expires != 0 && key == ExpiryLabel(cfg.style) then Some(ExpiryValue(cfg, useDnt, clock))
               else if cfg.cookieDomain.Some? && key == "domain" then cfg.cookieDomain
               else if cfg.cookieDomain.Some? && cfg.style == Cookie2 && key == "version" then Some("1")
               else None
  {
    var ps := Pieces(cfg, uid, useDnt, clock);
    var ex, dm := ExpiryPieces(cfg, useDnt, clock), DomainPieces(cfg);
    assert " " + "path" + "=" + "/" == " path=/";
    assert ps[1..] == [" " + "path" + "=" + "/"] + ex + dm;
    AttributeInAppend([" " + "path" + "=" + "/"] + ex, dm, key);
    AttributeInAppend([" " + "path" + "=" + "/"], ex, key);
    PieceAttribute(key, "path", "/");
    ExpiryPiecesAttribute(cfg, useDnt, clock, key);
    DomainPiecesAttribute(cfg, key);
  }


  /** The 1024-byte buffer the value is copied into before rendering keeps
      at most 1023 characters of it. */
  const CookieBufferLength: nat := 1023

  /** make_cookie: render the cookie for value uid (as much of it as the
      rendering buffer holds) and record its effects. */
  function MakeCookie(cfg: Config, uid: string, cur: Option<string>, useDnt: bool, clock: Clock): (effects: seq<Effect>)
    requires Indexable(clock.expiryTime)
    ensures NoteValue(effects, cfg.noteName) == Some(uid)
    ensures effects[0] == AddResponseHeader(SetCookieHeaderName(cfg.style),
                                            RenderCookie(cfg, Truncate(uid, CookieBufferLength), useDnt, clock))
  {
    CookieEffects(cfg, RenderCookie(cfg, Truncate(uid, CookieBufferLength), useDnt, clock), uid, cur)
  }

  /** The changes make_cookie records for a rendered cookie, in order: the
      response header carrying it, the same text injected as an incoming
      Cookie header when the request brought no value, the "generated" note
      ("0" when a value came in, "1" otherwise), the optional identifier
      header on both request and response, and the log note holding uid. */
  function CookieEffects(cfg: Config, cookie: string, uid: string, cur: Option<string>): (effects: seq<Effect>)
    ensures NoteValue(effects, cfg.noteName) == Some(uid)
  {
    var e := [AddResponseHeader(SetCookieHeaderName(cfg.style), cookie)]
      + (if cur.None? then [AddRequestHeader("Cookie", cookie)] else [])
      + [SetNote(cfg.generatedNoteName, if cur.Some? then "0" else "1")]
      + (if cfg.sendHeader then [AddRequestHeader(cfg.headerName, uid), AddResponseHeader(cfg.headerName, uid)] else [])
      + [SetNote(cfg.noteName, uid)];
    EqualsIgnoreCaseIsEquivalence(cfg.noteName, cfg.noteName, cfg.noteName);
    e
  }

  /** The response gains the cookie, under Set-Cookie2 exactly in the
      RFC 2965 style, then the identifier header when it is enabled. */
  lemma CookieEffectsResponse(cfg: Config, cookie: string, uid: string, cur: Option<string>)
    ensures ResponseAdds(CookieEffects(cfg, cookie, uid, cur))
            == [Header(SetCookieHeaderName(cfg.style), cookie)]
               + (if cfg.sendHeader then [Header(cfg.headerName, uid)] else [])
  {
    var e1: seq<Effect> := [AddResponseHeader(SetCookieHeaderName(cfg.style), cookie)];
    var e2: seq<Effect> := if cur.None? then [AddRequestHeader("Cookie", cookie)] else [];
    var e3: seq<Effect> := [SetNote(cfg.generatedNoteName, if cur.Some? then "0" else "1")];
    var e4: seq<Effect> := if cfg.sendHeader then [AddRequestHeader(cfg.headerName, uid), AddResponseHeader(cfg.headerName, uid)] else [];
    var e5: seq<Effect> := [SetNote(cfg.noteName, uid)];
    assert CookieEffects(cfg, cookie, uid, cur) == e1 + e2 + e3 + e4 + e5;
    ResponseAddsAppend(e1 + e2 + e3 + e4, e5);
    ResponseAddsAppend(e1 + e2 + e3, e4);
    ResponseAddsAppend(e1 + e2, e3);
    ResponseAddsAppend(e1, e2);
    if cfg.sendHeader {
      ResponseAddsAppend([AddRequestHeader(cfg.headerName, uid)], [AddResponseHeader(cfg.headerName, uid)]);
    }
  }

  /** The request gains the cookie only when it brought no value of its
      own, then the identifier header when it is enabled. */
  lemma CookieEffectsRequest(cfg: Config, cookie: string, uid: string, cur: Option<string>)
    ensures RequestAdds(CookieEffects(cfg, cookie, uid, cur))
            == (if cur.None? then [Header("Cookie", cookie)] else [])
               + (if cfg.sendHeader then [Header(cfg.headerName, uid)] else [])
  {
    var e1: seq<Effect> := [AddResponseHeader(SetCookieHeaderName(cfg.style), cookie)];
    var e2: seq<Effect> := if cur.None? then [AddRequestHeader("Cookie", cookie)] else [];
    var e3: seq<Effect> := [SetNote(cfg.generatedNoteName, if cur.Some? then "0" else "1")];
    var e4: seq<Effect> := if cfg.sendHeader then [AddRequestHeader(cfg.headerName, uid), AddResponseHeader(cfg.headerName, uid)] else [];
    var e5: seq<Effect> := [SetNote(cfg.noteName, uid)];
    assert CookieEffects(cfg, cookie, uid, cur) == e1 + e2 + e3 + e4 + e5;
    RequestAddsAppend(e1 + e2 + e3 + e4, e5);
    RequestAddsAppend(e1 + e2 + e3, e4);
    RequestAddsAppend(e1 + e2, e3);
    RequestAddsAppend(e1, e2);
    if cfg.sendHeader {
      RequestAddsAppend([AddRequestHeader(cfg.headerName, uid)], [AddResponseHeader(cfg.headerName, uid)]);
    }
  }

  /** The generated note says whether a value came in ("0") or not ("1"),
      unless the log note shares its name and overwrites it with uid. */
  lemma CookieEffectsGeneratedNote(cfg: Config, cookie: string, uid: string, cur: Option<string>)
    ensures NoteValue(CookieEffects(cfg, cookie, uid, cur), cfg.generatedNoteName)
            == Some(if EqualsIgnoreCase(cfg.noteName, cfg.generatedNoteName) then uid
                    else if cur.Some? then "0" else "1")
  {
    var e1: seq<Effect> := [AddResponseHeader(SetCookieHeaderName(cfg.style), cookie)];
    var e2: seq<Effect> := if cur.None? then [AddRequestHeader("Cookie", cookie)] else [];
    var e3: seq<Effect> := [SetNote(cfg.generatedNoteName, if cur.Some? then "0" else "1")];
    var e4: seq<Effect> := if cfg.sendHeader then [AddRequestHeader(cfg.headerName, uid), AddResponseHeader(cfg.headerName, uid)] else [];
    var e5: seq<Effect> := [SetNote(cfg.noteName, uid)];
    assert CookieEffects(cfg, cookie, uid, cur) == e1 + e2 + e3 + e4 + e5;
    var g := cfg.generatedNoteName;
    EqualsIgnoreCaseIsEquivalence(g, g, g);
    EqualsIgnoreCaseIsEquivalence(cfg.noteName, g, cfg.noteName);
    assert NoteValue(e3, g) == Some(if cur.Some? then "0" else "1");
    assert NoteValue(e4, g) == None;
    assert NoteValue(e5, g) == if EqualsIgnoreCase(cfg.noteName, g) then Some(uid) else None;
    NoteValueAppend(e1 + e2 + e3 + e4, e5, g);
    NoteValueAppend(e1 + e2 + e3, e4, g);
    NoteValueAppend(e1 + e2, e3, g);
  }
}

=== FILE: scanner.dfy ===
/** The cookie-header scanner: what the compiled pattern
    `^NAME=([^;,]+)|[;,][ \t]*NAME=([^;,]+)` finds in a Cookie header, written
    as a direct scan. The server's regular-expression library backtracks: it
    tries start positions left to right; at each it tries the anchored
    alternative first, then the after-delimiter one, whose greedy `[ \t]*`
    gives up blanks one at a time; the greedy value class then takes every
    character up to the next `;` or `,`. */
module CookieScanner {

  import opened Wrappers

  predicate IsDelimiter(c: char) {
    c == ';' || c == ','
  }

  predicate IsBlank(c: char) {
    c == ' ' || c == '\t'
  }

  /** `name=` starts at j and is followed by at least one value character. */
  predicate NameValueAt(h: string, name: string, j: nat) {
    && j + |name| + 1 < |h|
    && h[j..j + |name|] == name
    && h[j + |name|] == '='
    && !IsDelimiter(h[j + |name| + 1])
  }

  /** The pattern matches starting at i with the name starting at j: either
      at the very start of the header, or after a delimiter at i followed by
      nothing but blanks up to j. */
  predicate OccursAt(h: string, name: string, i: nat, j: nat) {
    && NameValueAt(h, name, j)
    && ((i == 0 && j == 0)
        || (i < j && IsDelimiter(h[i]) && forall m :: i < m < j ==> IsBlank(h[m])))
  }

  /** Among matches starting at the same i, the one naming j is tried before
      the one naming k: the anchored alternative (j == i) comes first, then the
      longer blank run. */
  predicate TriedBefore(i: nat, j: nat, k: nat) {
    j == i || (k != i && k < j)
  }

  /** (i, j) is the match the backtracking matcher reports. */
  ghost predicate IsFirst(h: string, name: string, i: nat, j: nat) {
    && OccursAt(h, name, i, j)
    && (forall i2: nat, j2: nat :: OccursAt(h, name, i2, j2) ==> i <= i2)
    && (forall k: nat :: OccursAt(h, name, i, k) && k != j ==> TriedBefore(i, j, k))
  }

  /** The end of the run of non-delimiters starting at k. */
  function RunEnd(h: string, k: nat): (e: nat)
    requires k <= |h|
    ensures k <= e <= |h|
    ensures forall m :: k <= m < e ==> !IsDelimiter(h[m])
    ensures e < |h| ==> IsDelimiter(h[e])
    decreases |h| - k
  {
    if k == |h| || IsDelimiter(h[k]) then k else RunEnd(h, k + 1)
  }

  /** The end of the run of blanks starting at k. */
  function BlankEnd(h: string, k: nat): (e: nat)
    requires k <= |h|
    ensures k <= e <= |h|
    ensures forall m :: k <= m < e ==> IsBlank(h[m])
    ensures e < |h| ==> !IsBlank(h[e])
    decreases |h| - k
  {
    if k == |h| || !IsBlank(h[k]) then k else BlankEnd(h, k + 1)
  }

  /** The captured value of a match whose name starts at j. */
  function ValueAt(h: string, name: string, j: nat): string
    requires NameValueAt(h, name, j)
  {
    h[j + |name| + 1..RunEnd(h, j + |name| + 1)]
  }

  /** Backtracking over the blank run after the delimiter at i: tries name
      positions j, j - 1, ..., i + 1. */
  function TryBlanks(h: string, name: string, i: nat, j: nat): (r: Option<nat>)
    requires i < |h| && IsDelimiter(h[i]) && i <= j <= |h|
    requires forall m :: i < m < j ==> IsBlank(h[m])
    ensures r.Some? ==> i < r.value <= j && OccursAt(h, name, i, r.value)
    ensures r.Some? ==> forall k: nat :: r.value < k <= j ==> !OccursAt(h, name, i, k)
    ensures r.None? ==> forall k: nat :: i < k <= j ==> !OccursAt(h, name, i, k)
    decreases j
  {
    if j == i then None
    else if NameValueAt(h, name, j) then Some(j)
    else TryBlanks(h, name, i, j - 1)
  }

  /** The first match starting at position i or later. */
  function LocateFrom(h: string, name: string, i: nat): (r: Option<(nat, nat)>)
    requires i <= |h|
    ensures r.Some? ==> i <= r.value.0 && OccursAt(h, name, r.value.0, r.value.1)
    ensures r.Some? ==> forall i2: nat, j2: nat :: OccursAt(h, name, i2, j2) && i <= i2 ==> r.value.0 <= i2
    ensures r.Some? ==> forall k: nat :: OccursAt(h, name, r.value.0, k) && k != r.value.1 ==>
                          TriedBefore(r.value.0, r.value.1, k)
    ensures r.None? ==> forall i2: nat, j2: nat :: OccursAt(h, name, i2, j2) ==> i2 < i
    decreases |h| - i
  {
    if i == |h| then None
    else if i == 0 && NameValueAt(h, name, 0) then Some((0, 0))
    else if IsDelimiter(h[i]) then
      match TryBlanks(h, name, i, BlankEnd(h, i + 1))
      case Some(j) => Some((i, j))
      case None => LocateFrom(h, name, i + 1)
    else LocateFrom(h, name, i + 1)
  }

  /** The position of the reported match, if the pattern matches at all. */
  function Locate(h: string, name: string): (r: Option<(nat, nat)>)
    ensures r.Some? ==> IsFirst(h, name, r.value.0, r.value.1)
    ensures r.None? <==> forall i: nat, j: nat :: !OccursAt(h, name, i, j)
  {
    LocateFrom(h, name, 0)
  }

  /** r is what the pattern reports for header h: a value iff the pattern
      matches somewhere, and then the value of the reported match. */
  ghost predicate ReportedValue(h: string, name: string, r: Option<string>) {
    && (r.Some? <==> exists i: nat, j: nat :: OccursAt(h, name, i, j))
    && (r.Some? ==> exists i: nat, j: nat :: IsFirst(h, name, i, j) && r.value == ValueAt(h, name, j))
  }

  /** The current tracking value read from a Cookie header: the value of the
      first `name=value` that starts the header or follows a `;` or `,` and
      optional blanks, running to the next `;` or `,` or the end; an
      occurrence with an empty value does not match. */
  function Scan(h: string, name: string): (r: Option<string>)
    ensures r.Some? <==> exists i: nat, j: nat :: OccursAt(h, name, i, j)
    ensures r.Some? ==> exists i: nat, j: nat :: IsFirst(h, name, i, j) && r.value == ValueAt(h, name, j)
    ensures r.Some? ==> |r.value| > 0 && forall m :: 0 <= m < |r.value| ==> !IsDelimiter(r.value[m])
    ensures ReportedValue(h, name, r)
  {
    match Locate(h, name)
    case Some((i, j)) => Some(ValueAt(h, name, j))
    case None => None
  }

  /** The reported match is unique: the scan is a function of the header. */
  lemma FirstIsUnique(h: string, name: string, i: nat, j: nat, i2: nat, j2: nat)
    requires IsFirst(h, name, i, j) && IsFirst(h, name, i2, j2)
    ensures i == i2 && j == j2
  {
  }

  /** A tracking cookie at the very start of the header is the one read,
      whatever follows its delimiter. */
  lemma LeadingCookieWins(name: string, v: string, rest: string)
    requires |v| > 0 && forall m :: 0 <= m < |v| ==> !IsDelimiter(v[m])
    requires |rest| == 0 || IsDelimiter(rest[0])
    ensures Scan(name + "=" + v + rest, name) == Some(v)
  {
    var h := name + "=" + v + rest;
    assert h[..|name|] == name;
    assert NameValueAt(h, name, 0);
    var e := |name| + 1 + |v|;
    assert RunEnd(h, |name| + 1) == e by {
      RunEndSkips(h, |name| + 1, e);
    }
    assert h[|name| + 1..e] == v;
  }

  lemma {:induction false} RunEndSkips(h: string, k: nat, e: nat)
    requires k <= e <= |h|
    requires forall m :: k <= m < e ==> !IsDelimiter(h[m])
    requires e == |h| || IsDelimiter(h[e])
    ensures RunEnd(h, k) == e
    decreases e - k
  {
    if k < e {
      RunEndSkips(h, k + 1, e);
    }
  }

  /** A match whose value is empty is passed over: the next one is read. */
  lemma EmptyValueSkipped()
    ensures Scan("Apache=; Apache=42", "Apache") == Some("42")
  {
    var h, name := "Apache=; Apache=42", "Apache";
    LocateSkipsEmptyValue();
    assert h[16..18] == "42";
    RunEndSkips(h, 16, 18);
  }

  lemma LocateSkipsEmptyValue()
    ensures Locate("Apache=; Apache=42", "Apache") == Some((7, 9))
  {
    var h, name := "Apache=; Apache=42", "Apache";
    SecondCookieFound(h, name);
    assert !NameValueAt(h, name, 0);
    PlainCharacterSkipped(h, name, 6);
    PlainCharacterSkipped(h, name, 5);
    PlainCharacterSkipped(h, name, 4);
    PlainCharacterSkipped(h, name, 3);
    PlainCharacterSkipped(h, name, 2);
    PlainCharacterSkipped(h, name, 1);
  }

  lemma SecondCookieFound(h: string, name: string)
    requires h == "Apache=; Apache=42" && name == "Apache"
    ensures LocateFrom(h, name, 7) == Some((7, 9))
  {
    assert h[9..15] == name;
    assert NameValueAt(h, name, 9);
    assert BlankEnd(h, 8) == 9;
  }

  /** Away from the start, a position that holds no delimiter starts no
      match. */
  lemma PlainCharacterSkipped(h: string, name: string, i: nat)
    requires 0 < i < |h| && !IsDelimiter(h[i])
    ensures LocateFrom(h, name, i) == LocateFrom(h, name, i + 1)
  {
  }

}

=== FILE: settings.dfy ===
/** The per-scope configuration record of the module and its defaults. */
module Settings {

  import opened Wrappers
  import CookiePattern

  /** The cookie dialect; Unset renders like Netscape. */
  datatype Style = Unset | Netscape | Cookie | Cookie2

  datatype Config = Config(
    enabled: bool,
    style: Style,
    cookieName: string,
    cookieDomain: Option<string>,
    ipHeader: Option<string>,
    noteName: string,
    generatedNoteName: string,
    headerName: string,
    /** The pattern text derived from cookieName (kept to show it is never stale). */
    regexp: string,
    /** Lifetime in seconds; 0 means a session cookie. */
    expires: int,
    sendHeader: bool,
    dntValue: string,
    setDntCookie: bool,
    complyWithDnt: bool,
    /** The fixed DNT expiry as an absolute Unix time. */
    dntMaxAge: int,
    /** The same fixed expiry as Netscape date text. */
    dntExpires: string,
    /** Cookie values never touched, compared case-insensitively. */
    dntExempt: seq<string>,
    /** User-Agent patterns whose DNT signal is ignored, in declaration order. */
    dntExemptBrowsers: seq<string>)

  /** The longest existing cookie value carried forward (_MAX_COOKIE_LENGTH). */
  const MaxCookieLength: nat := 40

  const DefaultCookieName := "Apache"
  const DefaultNoteName := "cookie"
  const DefaultGeneratedNoteName := "cookie_generated"
  const DefaultHeaderName := "X-UUID"
  const DefaultDntValue := "DNT"
  const DefaultDntExpires := "Fri, 01-Jan-38 00:00:00 GMT"
  /** 2038-01-01 00:00:00 UTC. */
  const DefaultDntMaxAge := 2145916800

  /** The pattern of a configuration reflects its current cookie name. */
  predicate PatternCurrent(c: Config) {
    c.regexp == CookiePattern.RegexpText(c.cookieName)
  }

  /** The record make_cookietrack_settings creates for every scope. */
  function Default(): (c: Config)
    ensures PatternCurrent(c)
  {
    Config(
      enabled := false,
      style := Unset,
      cookieName := DefaultCookieName,
      cookieDomain := None,
      ipHeader := None,
      noteName := DefaultNoteName,
      generatedNoteName := DefaultGeneratedNoteName,
      headerName := DefaultHeaderName,
      regexp := CookiePattern.RegexpText(DefaultCookieName),
      expires := 0,
      sendHeader := false,
      dntValue := DefaultDntValue,
      setDntCookie := true,
      complyWithDnt := true,
      dntMaxAge := DefaultDntMaxAge,
      dntExpires := DefaultDntExpires,
      dntExempt := [],
      dntExemptBrowsers := [])
  }
}

=== FILE: text.dfy ===
/** Character classes and comparisons of the C locale, as the module uses them
    through apr_isdigit, apr_isalnum, apr_isspace, strcasecmp and strncasecmp. */
module Text {

  import opened Wrappers

  predicate IsDigit(c: char) {
    '0' <= c <= '9'
  }

  predicate IsAlpha(c: char) {
    ('a' <= c <= 'z') || ('A' <= c <= 'Z')
  }

  /** apr_isalnum: an ASCII letter or digit. */
  predicate IsAlnum(c: char) {
    IsDigit(c) || IsAlpha(c)
  }

  /** apr_isspace in the C locale: space, tab, newline, vertical tab, form feed, carriage return. */
  predicate IsSpace(c: char) {
    c == ' ' || c == '\t' || c == '\n' || c == '\U{000B}' || c == '\U{000C}' || c == '\r'
  }

  /** tolower in the C locale: only the ASCII capitals are folded. */
  function Lower(c: char): (l: char)
    ensures IsAlpha(c) <==> IsAlpha(l)
    ensures !IsAlpha(c) ==> l == c
    ensures 'a' <= c <= 'z' ==> l == c
    ensures 'A' <= c <= 'Z' ==> l as int == c as int + 32
  {
    if 'A' <= c <= 'Z' then (c as int + 32) as char else c
  }

  /** strcasecmp(a, b) == 0. */
  predicate EqualsIgnoreCase(a: string, b: string) {
    |a| == |b| && forall i :: 0 <= i < |a| ==> Lower(a[i]) == Lower(b[i])
  }

  /** strncasecmp(word, keyword, n) == 0 for a keyword at least n characters
      long: the word must supply n characters, for a shorter word meets the
      keyword's next character with its terminating NUL. */
  predicate PrefixIgnoreCase(word: string, keyword: string, n: nat)
    requires n <= |keyword|
    decreases n
  {
    n == 0 || (|word| > 0 && Lower(word[0]) == Lower(keyword[0]) && PrefixIgnoreCase(word[1..], keyword[1..], n - 1))
  }

  /** Case-insensitive equality is an equivalence, so "equal to an entry of
      the list" does not depend on which side the request value sits. */
  lemma EqualsIgnoreCaseIsEquivalence(a: string, b: string, c: string)
    ensures EqualsIgnoreCase(a, a)
    ensures EqualsIgnoreCase(a, b) ==> EqualsIgnoreCase(b, a)
    ensures EqualsIgnoreCase(a, b) && EqualsIgnoreCase(b, c) ==> EqualsIgnoreCase(a, c)
  {
  }

  /** The first n characters of s, or all of s when it is shorter
      (apr_pstrndup, and a bounded `%s` into an n-character buffer). */
  function Truncate(s: string, n: nat): (r: string)
    ensures r <= s
    ensures |r| == if |s| <= n then |s| else n
  {
    if |s| <= n then s else s[..n]
  }

  /** The index of the first c in s, or |s| when s holds none (strchr). */
  function IndexOf(s: string, c: char): (k: nat)
    ensures k <= |s|
    ensures k < |s| ==> s[k] == c
    ensures forall i :: 0 <= i < k ==> s[i] != c
  {
    if |s| == 0 then 0
    else if s[0] == c then 0
    else 1 + IndexOf(s[1..], c)
  }

  /** The index of the last c in s, if there is one (strrchr). */
  function LastIndexOf(s: string, c: char): (k: Option<nat>)
    ensures k.Some? ==> k.value < |s| && s[k.value] == c
    ensures k.Some? ==> forall i :: k.value < i < |s| ==> s[i] != c
    ensures k.None? <==> c !in s
  {
    if |s| == 0 then None
    else if s[|s| - 1] == c then Some(|s| - 1)
    else LastIndexOf(s[..|s| - 1], c)
  }

  /** The pieces of s between occurrences of the separator c. */
  function Split(s: string, c: char): (parts: seq<string>)
    ensures |parts| > 0
    ensures forall k :: 0 <= k < |parts| ==> c !in parts[k]
    decreases |s|
  {
    var k := IndexOf(s, c);
    if k == |s| then [s]
    else
      assert forall i :: 0 <= i < k ==> s[..k][i] != c;
      [s[..k]] + Split(s[k + 1..], c)
  }

  /** The pieces glued back together, each after the first preceded by c. */
  function Join(parts: seq<string>, c: char): string
    requires |parts| > 0
  {
    parts[0] + Tail(parts[1..], c)
  }

  function Tail(parts: seq<string>, c: char): string {
    if |parts| == 0 then "" else [c] + parts[0] + Tail(parts[1..], c)
  }

  lemma {:induction false} TailAppend(a: seq<string>, b: seq<string>, c: char)
    ensures Tail(a + b, c) == Tail(a, c) + Tail(b, c)
    decreases |a|
  {
    if |a| == 0 {
      assert a + b == b;
    } else {
      assert (a + b)[1..] == a[1..] + b;
      TailAppend(a[1..], b, c);
    }
  }

  /** Splitting undoes joining when no piece holds the separator. */
  lemma {:induction false} SplitJoin(parts: seq<string>, c: char)
    requires |parts| > 0
    requires forall k :: 0 <= k < |parts| ==> c !in parts[k]
    ensures Split(Join(parts, c), c) == parts
    decreases |parts|
  {
    var s := Join(parts, c);
    var p := parts[0];
    if |parts| == 1 {
      assert s == p;
      assert IndexOf(s, c) == |s|;
    } else {
      var rest := Join(parts[1..], c);
      assert parts[1..][1..] == parts[2..];
      assert s == p + [c] + rest;
      assert s[|p|] == c;
      assert IndexOf(s, c) == |p| by {
        assert forall i :: 0 <= i < |p| ==> s[i] == p[i];
      }
      assert s[..|p|] == p;
      assert s[|p| + 1..] == rest;
      SplitJoin(parts[1..], c);
    }
  }
}

=== FILE: tracker.dfy ===
/** The fixups hook (spot_cookie): find the tracking cookie the request
    brought, honour exempt values and the Do Not Track signal, work out the
    client address, choose the value to set, and hand it to make_cookie. */
module Tracker {

  import opened Wrappers
  import opened Text
  import opened Decimal
  import opened Settings
  import opened Headers
  import opened CookieScanner
  import opened Render

  /** What the hook sees of a request: whether it is a subrequest, the
      incoming headers, the peer's name as the server reports it, and the
      clock readings of the request. */
  datatype Request = Request(isSubrequest: bool, headers: seq<Header>, remoteHost: string, clock: Clock)

  /** How a fresh identifier is made: the built-in form, the client
      address, a dot and the microsecond timestamp; or a library function
      linked in at build time, given the timestamp text and the address. */
  datatype UidSource = Builtin | External(gen: (string, string) -> string)

  /** The hook either declines, leaving the request untouched, or handles
      it with these effects, in order. */
  datatype Outcome = Declined | Handled(effects: seq<Effect>)

  /** The tracking cookie's value in the request: the first Cookie header
      scanned with the configured name. */
  function CurrentValue(cfg: Config, hs: seq<Header>): (r: Option<string>)
    ensures match Lookup(hs, "Cookie")
            case None => r.None?
            case Some(h) => ReportedValue(h, cfg.cookieName, r)
    ensures r.Some? ==> |r.value| > 0
  {
    match Lookup(hs, "Cookie")
    case None => None
    case Some(h) => Scan(h, cfg.cookieName)
  }

  /** Whether v equals an entry of the list, ignoring case. */
  predicate AnyEqualIgnoreCase(list: seq<string>, v: string)
    ensures AnyEqualIgnoreCase(list, v) <==> exists i :: 0 <= i < |list| && EqualsIgnoreCase(v, list[i])
  {
    if |list| == 0 then false
    else EqualsIgnoreCase(v, list[0]) || AnyEqualIgnoreCase(list[1..], v)
  }

  /** The current value is on the DNT-exempt list: the hook leaves it alone. */
  predicate ValueExempt(cfg: Config, cur: Option<string>) {
    |cfg.dntExempt| > 0 && cur.Some? && AnyEqualIgnoreCase(cfg.dntExempt, cur.value)
  }

  /** DNT is set when the header is present and its value is not "0"
      (ignoring case; an empty value counts as set). */
  predicate DntIsSet(hs: seq<Header>) {
    match Lookup(hs, "DNT")
    case None => false
    case Some(v) => !EqualsIgnoreCase(v, "0")
  }

  /** The index of the first pattern the User-Agent matches; the source
      stops compiling and trying patterns at the first match. */
  function FirstMatch(patterns: seq<string>, ua: string, matches: (string, string) -> bool): (r: Option<nat>)
    ensures r.Some? ==> r.value < |patterns| && matches(patterns[r.value], ua)
                          && forall k :: 0 <= k < r.value ==> !matches(patterns[k], ua)
    ensures r.None? <==> forall k :: 0 <= k < |patterns| ==> !matches(patterns[k], ua)
  {
    if |patterns| == 0 then None
    else if matches(patterns[0], ua) then Some(0)
    else
      match FirstMatch(patterns[1..], ua, matches)
      case None => None
      case Some(k) => Some(k + 1)
  }

  /** The browser's DNT signal is ignored: patterns are configured, DNT is
      set, a User-Agent is present and one of the patterns matches it. */
  predicate BrowserExempt(cfg: Config, hs: seq<Header>, matches: (string, string) -> bool) {
    && |cfg.dntExemptBrowsers| > 0
    && DntIsSet(hs)
    && match Lookup(hs, "User-Agent")
       case None => false
       case Some(ua) => FirstMatch(cfg.dntExemptBrowsers, ua, matches).Some?
  }

  /** The DNT rules apply to this request. */
  predicate DntApplies(cfg: Config, hs: seq<Header>, matches: (string, string) -> bool) {
    DntIsSet(hs) && cfg.complyWithDnt && !BrowserExempt(cfg, hs, matches)
  }

  /** The text after any leading spaces (tabs are kept). */
  function SkipSpaces(s: string): (r: string)
    ensures |r| <= |s| && r == s[|s| - |r|..]
    ensures forall m :: 0 <= m < |s| - |r| ==> s[m] == ' '
    ensures |r| > 0 ==> r[0] != ' '
  {
    if |s| > 0 && s[0] == ' ' then SkipSpaces(s[1..]) else s
  }

  /** The last entry of a forwarded-address list: the text after the last
      comma with leading spaces dropped, or the whole value when it holds
      no comma. */
  function LastEntry(x: string): (a: string)
    ensures |a| <= |x| && a == x[|x| - |a|..] && ',' !in a
    ensures ',' in x ==> |a| < |x| && (|a| > 0 ==> a[0] != ' ')
    ensures ',' !in x ==> a == x
  {
    match LastIndexOf(x, ',')
    case None => x
    case Some(i) =>
      var a := SkipSpaces(x[i + 1..]);
      assert x[i + 1..][|x[i + 1..]| - |a|..] == x[|x| - |a|..];
      a
  }

  /** The client address: the last entry of the configured address header
      when there is one and the request carries it, otherwise the peer's
      name. */
  function ClientAddress(cfg: Config, hs: seq<Header>, remoteHost: string): string {
    match cfg.ipHeader
    case None => remoteHost
    case Some(n) =>
      match Lookup(hs, n)
      case None => remoteHost
      case Some(x) => LastEntry(x)
  }

  /** A fresh identifier for a client address at a microsecond timestamp. */
  function GenerateUid(source: UidSource, addr: string, micros: int): string {
    match source
    case Builtin => addr + "." + IntToString(micros)
    case External(gen) => gen(IntToString(micros), addr)
  }

  /** The value to set: the DNT value when the DNT rules apply; a fresh
      identifier when the request brought none or brought the DNT value
      (DNT has since been lifted); otherwise the value it brought, cut to
      the longest length carried forward. */
  function NewValue(cfg: Config, cur: Option<string>, dnt: bool, addr: string, micros: int, source: UidSource): (v: string)
    ensures dnt ==> v == cfg.dntValue
    ensures !dnt && cur.Some? && !EqualsIgnoreCase(cur.value, cfg.dntValue) ==>
              v == Truncate(cur.value, MaxCookieLength)
    ensures !dnt && (cur.None? || EqualsIgnoreCase(cur.value, cfg.dntValue)) ==> v == GenerateUid(source, addr, micros)
  {
    if dnt then cfg.dntValue
    else
      match cur
      case None => GenerateUid(source, addr, micros)
      case Some(c) =>
        if EqualsIgnoreCase(c, cfg.dntValue) then GenerateUid(source, addr, micros)
        else Truncate(c, MaxCookieLength)
  }

  /** The whole hook. */
  function SpotCookie(cfg: Config, req: Request, source: UidSource, matches: (string, string) -> bool): (o: Outcome)
    requires Indexable(req.clock.expiryTime)
    ensures o.Handled? ==> cfg.enabled && !req.isSubrequest
    ensures o.Handled? ==> |o.effects| > 0 && o.effects[0].SetNote? && o.effects[0].name == cfg.noteName
  {
    if !cfg.enabled || req.isSubrequest then Declined
    else
      var cur := CurrentValue(cfg, req.headers);
      if ValueExempt(cfg, cur) then Declined
      else
        var dnt := DntApplies(cfg, req.headers, matches);
        if dnt && !cfg.setDntCookie then Declined
        else
          var addr := ClientAddress(cfg, req.headers, req.remoteHost);
          var v := NewValue(cfg, cur, dnt, addr, req.clock.nowMicros, source);
          Handled([SetNote(cfg.noteName, v)] + MakeCookie(cfg, v, cur, dnt, req.clock))
  }
}

=== FILE: tracker_facts.dfy ===
/** What the hook promises: when it leaves a request alone, which value it
    settles on, how the Do Not Track signal enters the decision, and that
    the value it sets comes back unchanged on the next visit. */
module TrackerFacts {

  import opened Wrappers
  import opened Text
  import opened Decimal
  import opened Settings
  import opened Headers
  import opened CookieScanner
  import opened Render
  import opened Tracker

  /** The hook declines exactly when tracking is off, the request is a
      subrequest, the cookie it brought equals (ignoring case) a DNT-exempt
      value, or the DNT rules apply and no DNT cookie is wanted. */
  lemma DeclineConditions(cfg: Config, req: Request, source: UidSource, matches: (string, string) -> bool)
    requires Indexable(req.clock.expiryTime)
    ensures var cur := CurrentValue(cfg, req.headers);
      SpotCookie(cfg, req, source, matches).Declined?
      <==> || !cfg.enabled || req.isSubrequest
           || (cur.Some? && exists i :: 0 <= i < |cfg.dntExempt| && EqualsIgnoreCase(cur.value, cfg.dntExempt[i]))
           || (DntApplies(cfg, req.headers, matches) && !cfg.setDntCookie)
  {
  }

  /** The log note of a handled request holds the value the hook chose,
      and the request headers it adds are those of make_cookie. */
  lemma HandledNote(cfg: Config, v: string, cur: Option<string>, dnt: bool, clock: Clock)
    requires Indexable(clock.expiryTime)
    ensures var e := [SetNote(cfg.noteName, v)] + MakeCookie(cfg, v, cur, dnt, clock);
      && NoteValue(e, cfg.noteName) == Some(v)
      && RequestAdds(e) == RequestAdds(MakeCookie(cfg, v, cur, dnt, clock))
      && ResponseAdds(e) == ResponseAdds(MakeCookie(cfg, v, cur, dnt, clock))
      && NoteValue(e, cfg.generatedNoteName) == NoteValue(MakeCookie(cfg, v, cur, dnt, clock), cfg.generatedNoteName)
  {
    var m := MakeCookie(cfg, v, cur, dnt, clock);
    var first: seq<Effect> := [SetNote(cfg.noteName, v)];
    NoteValueAppend(first, m, cfg.noteName);
    NoteValueAppend(first, m, cfg.generatedNoteName);
    RequestAddsAppend(first, m);
    ResponseAddsAppend(first, m);
    assert RequestAdds(first) == [] && ResponseAdds(first) == [];
    assert NoteValue(m, cfg.generatedNoteName).Some? by {
      CookieEffectsGeneratedNote(cfg, RenderCookie(cfg, Truncate(v, CookieBufferLength), dnt, clock), v, cur);
    }
  }

  /** Under the DNT rules, with a DNT cookie wanted and no exempt value, the
      DNT value is logged and the cookie carries it with the fixed DNT
      expiry. */
  lemma DntCookieSet(cfg: Config, req: Request, source: UidSource, matches: (string, string) -> bool)
    requires Indexable(req.clock.expiryTime)
    requires cfg.enabled && !req.isSubrequest
    requires !ValueExempt(cfg, CurrentValue(cfg, req.headers))
    requires DntApplies(cfg, req.headers, matches) && cfg.setDntCookie
    ensures var o := SpotCookie(cfg, req, source, matches);
      && o.Handled?
      && NoteValue(o.effects, cfg.noteName) == Some(cfg.dntValue)
      && |ResponseAdds(o.effects)| > 0 && ResponseAdds(o.effects)[0]
         == Header(SetCookieHeaderName(cfg.style), RenderCookie(cfg, Truncate(cfg.dntValue, CookieBufferLength), true, req.clock))
      && ResponseAdds(o.effects)
         == [Header(SetCookieHeaderName(cfg.style), RenderCookie(cfg, Truncate(cfg.dntValue, CookieBufferLength), true, req.clock))]
            + (if cfg.sendHeader then [Header(cfg.headerName, cfg.dntValue)] else [])
  {
    var cur := CurrentValue(cfg, req.headers);
    HandledNote(cfg, cfg.dntValue, cur, true, req.clock);
    CookieEffectsResponse(cfg, RenderCookie(cfg, Truncate(cfg.dntValue, CookieBufferLength), true, req.clock), cfg.dntValue, cur);
  }

  /** A value that is neither exempt nor the DNT value is carried forward,
      cut to its first 40 characters, outside the DNT rules; it is not
      injected into the request again and the generated note says "0"
      (unless the log note shares its name). */
  lemma ExistingValueKept(cfg: Config, req: Request, source: UidSource, matches: (string, string) -> bool)
    requires Indexable(req.clock.expiryTime)
    requires cfg.enabled && !req.isSubrequest
    requires CurrentValue(cfg, req.headers).Some?
    requires !ValueExempt(cfg, CurrentValue(cfg, req.headers))
    requires !EqualsIgnoreCase(CurrentValue(cfg, req.headers).value, cfg.dntValue)
    requires !DntApplies(cfg, req.headers, matches)
    ensures var c := CurrentValue(cfg, req.headers).value;
      var o := SpotCookie(cfg, req, source, matches);
      && o.Handled?
      && NoteValue(o.effects, cfg.noteName) == Some(Truncate(c, MaxCookieLength))
      && RequestAdds(o.effects) == (if cfg.sendHeader then [Header(cfg.headerName, Truncate(c, MaxCookieLength))] else [])
      && ResponseAdds(o.effects)
         == [Header(SetCookieHeaderName(cfg.style), RenderCookie(cfg, Truncate(c, MaxCookieLength), false, req.clock))]
            + (if cfg.sendHeader then [Header(cfg.headerName, Truncate(c, MaxCookieLength))] else [])
      && (!EqualsIgnoreCase(cfg.noteName, cfg.generatedNoteName) ==> NoteValue(o.effects, cfg.generatedNoteName) == Some("0"))
  {
    var cur := CurrentValue(cfg, req.headers);
    var v := Truncate(cur.value, MaxCookieLength);
    assert Truncate(v, CookieBufferLength) == v;
    var cookie := RenderCookie(cfg, v, false, req.clock);
    HandledNote(cfg, v, cur, false, req.clock);
    CookieEffectsRequest(cfg, cookie, v, cur);
    CookieEffectsResponse(cfg, cookie, v, cur);
    CookieEffectsGeneratedNote(cfg, cookie, v, cur);
  }

  /** Outside the DNT rules a request without the cookie, or still carrying
      the DNT value, gets a fresh identifier for its client address; the
      generated note says "1" exactly when no value came in (unless the log
      note shares its name), and only then is the cookie injected into the
      request. */
  lemma FreshValueGenerated(cfg: Config, req: Request, source: UidSource, matches: (string, string) -> bool)
    requires Indexable(req.clock.expiryTime)
    requires cfg.enabled && !req.isSubrequest
    requires !ValueExempt(cfg, CurrentValue(cfg, req.headers))
    requires CurrentValue(cfg, req.headers).None? || EqualsIgnoreCase(CurrentValue(cfg, req.headers).value, cfg.dntValue)
    requires !DntApplies(cfg, req.headers, matches)
    ensures var cur := CurrentValue(cfg, req.headers);
      var uid := GenerateUid(source, ClientAddress(cfg, req.headers, req.remoteHost), req.clock.nowMicros);
      var o := SpotCookie(cfg, req, source, matches);
      && o.Handled?
      && NoteValue(o.effects, cfg.noteName) == Some(uid)
      && (!EqualsIgnoreCase(cfg.noteName, cfg.generatedNoteName) ==>
            NoteValue(o.effects, cfg.generatedNoteName) == Some(if cur.None? then "1" else "0"))
      && (|RequestAdds(o.effects)| > 0 && RequestAdds(o.effects)[0].name == "Cookie" <==> cur.None? || (cfg.sendHeader && cfg.headerName == "Cookie"))
      && var rendered := RenderCookie(cfg, Truncate(uid, CookieBufferLength), false, req.clock);
         && RequestAdds(o.effects)
            == (if cur.None? then [Header("Cookie", rendered)] else [])
               + (if cfg.sendHeader then [Header(cfg.headerName, uid)] else [])
         && ResponseAdds(o.effects)
            == [Header(SetCookieHeaderName(cfg.style), rendered)]
               + (if cfg.sendHeader then [Header(cfg.headerName, uid)] else [])
  {
    var cur := CurrentValue(cfg, req.headers);
    var v := GenerateUid(source, ClientAddress(cfg, req.headers, req.remoteHost), req.clock.nowMicros);
    var cookie := RenderCookie(cfg, Truncate(v, CookieBufferLength), false, req.clock);
    HandledNote(cfg, v, cur, false, req.clock);
    CookieEffectsRequest(cfg, cookie, v, cur);
    CookieEffectsResponse(cfg, cookie, v, cur);
    CookieEffectsGeneratedNote(cfg, cookie, v, cur);
  }

  /** A request whose DNT signal is off ("0", in any case) or whose browser
      is exempt from it is handled exactly as the same request without any
      DNT header, provided the address header is not DNT itself. */
  lemma DntSignalIgnored(cfg: Config, req: Request, source: UidSource, matches: (string, string) -> bool)
    requires Indexable(req.clock.expiryTime)
    requires !DntIsSet(req.headers) || BrowserExempt(cfg, req.headers, matches)
    requires cfg.ipHeader.Some? ==> !EqualsIgnoreCase(cfg.ipHeader.value, "DNT")
    ensures SpotCookie(cfg, req, source, matches)
            == SpotCookie(cfg, req.(headers := Without(req.headers, "DNT")), source, matches)
  {
    var hs, hs' := req.headers, Without(req.headers, "DNT");
    LookupWithout(hs, "DNT", "Cookie");
    LookupWithout(hs, "DNT", "User-Agent");
    if cfg.ipHeader.Some? {
      LookupWithout(hs, "DNT", cfg.ipHeader.value);
    }
    assert CurrentValue(cfg, hs') == CurrentValue(cfg, hs);
    assert ClientAddress(cfg, hs', req.remoteHost) == ClientAddress(cfg, hs, req.remoteHost);
    assert !DntIsSet(hs');
    assert !DntApplies(cfg, hs', matches) && !DntApplies(cfg, hs, matches);
  }

  /** The address picked from a forwarded-address list is its last entry:
      whatever precedes the last comma and the spaces after it is
      ignored. */
  lemma LastEntryOfList(front: string, spaces: nat, addr: string)
    requires ',' !in addr && (|addr| == 0 || addr[0] != ' ')
    ensures LastEntry(front + "," + seq(spaces, _ => ' ') + addr) == addr
  {
    var pad := seq(spaces, _ => ' ');
    var rest := pad + addr;
    var x := front + "," + rest;
    assert front + "," + pad + addr == x;
    assert ',' !in rest by {
      assert forall m :: 0 <= m < |rest| ==> rest[m] == (if m < |pad| then ' ' else addr[m - |pad|]);
    }
    LastCommaAt(front, rest);
    assert x[|front| + 1..] == rest;
    SkipSpacesOver(pad, addr);
  }

  /** The last comma of front, a comma and a comma-free rest is that comma. */
  lemma LastCommaAt(front: string, rest: string)
    requires ',' !in rest
    ensures LastIndexOf(front + "," + rest, ',') == Some(|front|)
  {
    LastIndexOfAfter(front + ",", rest, ',');
  }

  lemma {:induction false} LastIndexOfAfter(a: string, b: string, c: char)
    requires |a| > 0 && a[|a| - 1] == c && c !in b
    ensures LastIndexOf(a + b, c) == Some(|a| - 1)
    decreases |b|
  {
    var s := a + b;
    if |b| == 0 {
      assert s == a;
    } else {
      assert s[|s| - 1] == b[|b| - 1];
      assert s[..|s| - 1] == a + b[..|b| - 1];
      LastIndexOfAfter(a, b[..|b| - 1], c);
    }
  }

  lemma {:induction false} SkipSpacesOver(pad: string, addr: string)
    requires forall m :: 0 <= m < |pad| ==> pad[m] == ' '
    requires |addr| == 0 || addr[0] != ' '
    ensures SkipSpaces(pad + addr) == addr
    decreases |pad|
  {
    if |pad| == 0 {
      assert pad + addr == addr;
    } else {
      assert (pad + addr)[1..] == pad[1..] + addr;
      SkipSpacesOver(pad[1..], addr);
    }
  }

  /** A built-in identifier splits back at its last dot into the client
      address and the timestamp that made it. */
  lemma BuiltinUidParts(addr: string, micros: int)
    ensures var uid := GenerateUid(Builtin, addr, micros);
      && LastIndexOf(uid, '.') == Some(|addr|)
      && uid[..|addr|] == addr
      && SignedValue(uid[|addr| + 1..]) == micros
  {
    var t := IntToString(micros);
    var uid := addr + "." + t;
    IntToStringRoundTrip(micros);
    assert '.' !in t by {
      if t[0] == '-' {
        assert t == t[..1] + t[1..];
      }
    }
    assert uid[|addr|] == '.';
    assert forall m :: |addr| < m < |uid| ==> uid[m] == t[m - |addr| - 1];
    assert uid[|addr| + 1..] == t;
  }

  /** The value set comes back unchanged: a request whose Cookie header
      holds just name=v, for a value v of at most 40 characters that is
      neither exempt nor the DNT value, is handled outside the DNT rules by
      logging v again, sending a cookie that carries v itself (and scans
      back to v), and without injecting a second cookie. */
  lemma ValueIsStable(cfg: Config, req: Request, source: UidSource, matches: (string, string) -> bool, v: string)
    requires Indexable(req.clock.expiryTime)
    requires cfg.enabled && !req.isSubrequest
    requires 0 < |v| <= MaxCookieLength && forall m :: 0 <= m < |v| ==> !IsDelimiter(v[m])
    requires Lookup(req.headers, "Cookie") == Some(cfg.cookieName + "=" + v)
    requires forall i :: 0 <= i < |cfg.dntExempt| ==> !EqualsIgnoreCase(v, cfg.dntExempt[i])
    requires !EqualsIgnoreCase(v, cfg.dntValue)
    requires !DntApplies(cfg, req.headers, matches)
    ensures var o := SpotCookie(cfg, req, source, matches);
      && o.Handled?
      && NoteValue(o.effects, cfg.noteName) == Some(v)
      && RequestAdds(o.effects) == (if cfg.sendHeader then [Header(cfg.headerName, v)] else [])
      && ResponseAdds(o.effects)
         == [Header(SetCookieHeaderName(cfg.style), RenderCookie(cfg, v, false, req.clock))]
            + (if cfg.sendHeader then [Header(cfg.headerName, v)] else [])
      && Scan(ResponseAdds(o.effects)[0].value, cfg.cookieName) == Some(v)
  {
    LeadingCookieWins(cfg.cookieName, v, "");
    assert cfg.cookieName + "=" + v + "" == cfg.cookieName + "=" + v;
    assert CurrentValue(cfg, req.headers) == Some(v);
    ExistingValueKept(cfg, req, source, matches);
    RenderedCookieScans(cfg, v, false, req.clock);
  }

  /** Scanning a rendered cookie with the configured name reads back the
      value it was rendered with, whatever attributes follow. */
  lemma RenderedCookieScans(cfg: Config, t: string, useDnt: bool, clock: Clock)
    requires Indexable(clock.expiryTime)
    requires |t| > 0 && forall m :: 0 <= m < |t| ==> !IsDelimiter(t[m])
    ensures Scan(RenderCookie(cfg, t, useDnt, clock), cfg.cookieName) == Some(t)
  {
    var rest := "; path=/" + ExpiryAttribute(cfg, useDnt, clock) + DomainAttribute(cfg);
    assert RenderCookie(cfg, t, useDnt, clock) == cfg.cookieName + "=" + t + rest;
    LeadingCookieWins(cfg.cookieName, t, rest);
  }

  /** The cookie injected into a request that had no Cookie header is what
      the application behind the server reads: scanning the request's
      Cookie header afterwards yields the value (as much of it as the
      rendering buffer holds). */
  lemma InjectedCookieReadable(cfg: Config, hs: seq<Header>, uid: string, useDnt: bool, clock: Clock)
    requires Indexable(clock.expiryTime)
    requires Lookup(hs, "Cookie").None?
    requires |uid| > 0 && forall m :: 0 <= m < |uid| ==> !IsDelimiter(uid[m])
    ensures CurrentValue(cfg, hs + RequestAdds(MakeCookie(cfg, uid, None, useDnt, clock)))
            == Some(Truncate(uid, CookieBufferLength))
  {
    var t := Truncate(uid, CookieBufferLength);
    var cookie := RenderCookie(cfg, t, useDnt, clock);
    var adds := RequestAdds(MakeCookie(cfg, uid, None, useDnt, clock));
    CookieEffectsRequest(cfg, cookie, uid, None);
    assert adds[0] == Header("Cookie", cookie);
    EqualsIgnoreCaseIsEquivalence("Cookie", "Cookie", "Cookie");
    assert Lookup(adds, "Cookie") == Some(cookie);
    LookupAppend(hs, adds, "Cookie");
    assert forall m :: 0 <= m < |t| ==> t[m] == uid[m];
    RenderedCookieScans(cfg, t, useDnt, clock);
  }
}

=== FILE: wrappers.dfy ===
/** Failure-carrying datatypes shared by every module of the model. */
module Wrappers {

  /** A value that may be absent, such as a request header that was not sent. */
  datatype Option<+T> = None | Some(value: T)

  /** The outcome of a configuration directive: a new value, or the error text
      the server reports to the operator. */
  datatype Result<+R, +E> = Ok(value: R) | Err(error: E) {

    predicate IsFailure() {
      Err?
    }

    function PropagateFailure<U>(): Result<U, E>
      requires Err?
    {
      Err(error)
    }

    function Extract(): R
      requires Ok?
    {
      value
    }
  }
}
